=== FILE: README.md ===
# Feishu AI bot: instruction handling and link detection

A Dafny model of the message-handling core of a Feishu (Lark) chat bot,
`AIHandler` in `ai-handler.js`. It covers these parts:

- **Link detection** (`extractFeishuLink`). A chat message is scanned for a
  Feishu wiki, docx or base URL, with the kinds tried in that fixed order.
  The result is `{type, token, url}` or `null`.
- **Instruction dispatch.** The model's reply is parsed as JSON. The tail
  of `processMessage` and `executeInstruction` then destructure it into
  `{action, params}` and route `create_document`, `read_document`,
  `read_wiki` and `create_bitable` to their handlers. Any other action is
  echoed back. A reply that does not parse is returned to the user
  unchanged, and so is one whose handler throws past its own `catch`.
- **The handlers' pure logic:**
  - the import request of `createDocument` and its success and error texts;
  - the two requests of `createBitable`, with their default names and
    default two-field schema;
  - `readDocument`'s normalisation of a document URL to its ID, its
    case-insensitive keyword filter (at most 10 lines) and its
    500-character summary;
  - the text `readWikiContent` builds from a knowledge-base node.

Each regular expression is modelled as a deterministic scanner.
`Links.MatchAt` finds the match at a given index and `Links.Search` finds
the leftmost one. Both are proved equivalent to the declarative language
`Links.InLanguage` of the pattern. Each Lark platform call is a function
field of `Actions.Platform`, and each handler returns its reply together
with the list of platform requests it made. The JavaScript engine services
the handlers use are fields of `Actions.Runtime`:

- `JSON.parse` and `JSON.stringify`;
- `String(v)`;
- the message of a `TypeError`;
- the clock, as `toLocaleString('zh-CN')` prints it.

Decoded JSON values are `Json.Json`. Property reads, truthiness and `||`
follow JavaScript in `Json.Get`, `Json.Truthy` and `Json.Or`.

Interpolating a value into a template literal can throw. JSON can give an
object its own `toString` member, but never a callable one. Such an object
has no primitive form, so `${v}` raises a `TypeError`. So does an array
holding such an object at any depth. `Json.ToPrimitiveThrows` says when
this happens. `Actions.Show` is the interpolation, and it returns nothing
in that case. The handlers follow the consequences:

- an unrecognised action without a string form makes the echo throw, so
  the model's reply is returned;
- a document name without one makes the success report throw inside
  `createDocument`'s `try`, so the reply is the `catch` text;
- an error `msg` without one makes the `catch` itself throw.

Each `TypeError`'s message is the engine's, chosen by
`Actions.TypeErrorCause`: which value was read for which key, or which
value had no primitive form.

Modules: `Wrappers` (Option, Result), `Text` (substring search, runs,
split and join, lower-casing), `Links`, `Json`, `Documents`
(`readDocument`'s pure parts), `Actions` (handlers), `Dispatch`
(`executeInstruction` and the reply fallback of `processMessage`).

`read_wiki` names a handler the code never defines (see Findings).
`Dispatch.Execute` and `Dispatch.ProcessReply` therefore use the corrected
handler `Dispatch.ReadWiki`. It looks the node up by `params.node_token`
through `readWikiContent`. When there is no content it replies with the
bot's text for unreadable links (`ai-handler.js:318`). The code as written
is kept as `Dispatch.ExecuteAsWritten` and `Dispatch.ProcessReplyAsWritten`.

Two behaviours of the code are easy to misread:

- A link token is the longest run without `/` or `?`. So it takes in
  whatever follows the URL up to the next `/`, `?` or the end of the
  message, spaces and text included.
- `read_wiki` does not fetch a node as written (see Findings).

## Model

| member | source | states |
|---|---|---|
| Links.MatchAt | ai-handler.js:266-268 | a match found at an index sits in the message there and its token cannot be extended. For a Feishu URL pattern it is the scheme, a non-empty dot-free host, `.feishu.cn/<segment>/` and a non-empty token without `/` or `?`. For the `/\/docx\/([^/?]+)/` pattern of line 199 it is `/docx/` followed by such a token |
| Links.UrlMatchAt | ai-handler.js:266-268 | a URL match at an index is the scheme, a non-empty dot-free host, the kind's `.feishu.cn/<segment>/` and a token that runs to the next `/`, `?` or the end of the message |
| Links.HostAt | ai-handler.js:266-268 | a host found after `https://` at an index is non-empty and dot-free, and it is the whole run of characters up to the next `.` |
| Links.MatchAtSound | ai-handler.js:266-268 | every match the scanner reports is a string the regular expression accepts |
| Links.MatchAtComplete | ai-handler.js:266-268 | whenever the regular expression accepts a substring starting at an index, the scanner finds a match there at least as long |
| Links.MatchAtIffOccurs | ai-handler.js:266-268 | the scanner finds a match at an index exactly when the pattern matches starting at that index |
| Links.SearchLeftmost | ai-handler.js:272 | `message.match(pattern)` fails exactly when the pattern matches nowhere; otherwise it reports the match at the leftmost index where one starts |
| Links.Search | ai-handler.js:272 | `message.match(pattern)`; its contract is `Links.SearchLeftmost` |
| Links.FirstLink | ai-handler.js:271-279 | a link is reported only for a kind whose earlier kinds all fail, with the token and full text of that kind's match; `null` exactly when every pattern fails |
| Links.ExtractFeishuLink | ai-handler.js:264-280 | `extractFeishuLink`; its contract is `Links.ExtractFeishuLinkNone`, `Links.ExtractFeishuLinkPriority` and `Links.ExtractedLinkShape` |
| Links.ExtractFeishuLinkNone | ai-handler.js:264-280 | `extractFeishuLink` returns `null` exactly when none of the wiki, docx and base patterns occurs in the message |
| Links.ExtractFeishuLinkPriority | ai-handler.js:265-278 | a wiki link always wins; a docx link is reported only when there is no wiki link; a base link only when there is neither, whatever their positions |
| Links.ExtractedLinkShape | ai-handler.js:266-276 | the reported `url` is the leftmost match of its kind, the scheme + host + `.feishu.cn/<segment>/` + token; the token is `match[1]`, non-empty and free of `/` and `?` |
| Links.TypeFromPatternSource | ai-handler.js:274-275 | looking for `wiki` and then `docx` in a pattern's source names the wiki, docx and base patterns `wiki`, `docx` and `bitable` |
| Text.Split | ai-handler.js:212 | `content.split('\n')` yields at least one piece and no piece holds a newline |
| Text.JoinSplit | ai-handler.js:212 | joining the pieces of a split with the separator gives back the original text |
| Text.SplitJoin | ai-handler.js:218 | splitting the join of newline-free lines gives back exactly those lines |
| Text.Join | ai-handler.js:218 | `join('\n')`; its contract is `Text.JoinSplit` and `Text.SplitJoin` |
| Text.Take | ai-handler.js:218 | `slice(0, n)` keeps the first `n` elements, or all of them when there are fewer; line 218 takes 10 |
| Text.Lower | ai-handler.js:214 | `toLowerCase` keeps the length and lower-cases each character (`A`-`Z` only, see Left out) |
| Documents.NormaliseDocumentIdSpec | ai-handler.js:196-203 | an ID naming `feishu.cn` or `larksuite.com` and holding `/docx/<token>` becomes the token of the leftmost `/docx/` match; every other ID passes through unchanged |
| Documents.DocxPathNeedsSlash | ai-handler.js:199 | a `/docx/` match is only found in text that holds a slash |
| Documents.NormaliseDocumentIdIdempotent | ai-handler.js:196-203 | normalising an already normalised ID changes nothing |
| Documents.NormaliseDocumentId | ai-handler.js:196-203 | the ID normalisation; its contract is `Documents.NormaliseDocumentIdSpec`, `Documents.DocxPathNeedsSlash` and `Documents.NormaliseDocumentIdIdempotent` |
| Documents.MatchingLines | ai-handler.js:213-215 | the filter keeps only lines of the document that contain the keyword, ignoring case |
| Documents.MatchingLinesKeepsAll | ai-handler.js:213-215 | the filter drops no line that contains the keyword |
| Documents.MatchingLinesNonEmpty | ai-handler.js:213-217 | the filter keeps something exactly when some line contains the keyword |
| Documents.MatchingLinesConcat | ai-handler.js:213-215 | the filter keeps the document's order: filtering a concatenation concatenates the filters |
| Documents.SearchDocument | ai-handler.js:211-221 | lines are found exactly when some line contains the keyword; the report is the first min(10, all) matching lines, in order; otherwise the keyword is reported missing |
| Documents.KeywordReplyLines | ai-handler.js:218 | the found-lines reply is the header followed by exactly the reported lines, one per line |
| Documents.KeywordReply | ai-handler.js:218-220 | the keyword reply; its contract is `Documents.KeywordReplyLines` and `Actions.ReadDocumentSearches` |
| Documents.Summary | ai-handler.js:224 | content up to 500 characters is kept whole; longer content becomes its first 500 characters followed by `...` |
| Documents.SummaryIdempotent | ai-handler.js:224 | summarising a summary changes nothing |
| Documents.SummaryReply | ai-handler.js:225 | the summary reply; its contract is `Actions.ReadDocumentSummarises` |
| Actions.DocumentRequest | ai-handler.js:90-115 | the import's `file_name` is the title when it is truthy, else `测试文档`; its `markdown` is the content when it is truthy, else the default document stamped with the current time |
| Actions.DefaultMarkdown | ai-handler.js:95-113 | the default page imported without `content`; its contract is `Actions.DocumentRequest` |
| Actions.DocumentErrorText | ai-handler.js:123-133 | the `catch` throws exactly when an HTTP error has no readable `data` or a truthy `msg` without a string form. Otherwise the reply is `❌ 创建文档失败：` followed by the `msg` when truthy, else `error.message`. A non-HTTP error is followed by its message, or by `网络错误` when that is empty |
| Actions.TypeErrorText | ai-handler.js:130-131 | a `TypeError` caught by `createDocument` is reported as `❌ 创建文档失败：` followed by the engine's message for it, or `网络错误` when that is empty |
| Actions.Show | ai-handler.js:118 | interpolating `undefined` gives `undefined` and a string gives itself; the conversion throws exactly for an object with its own `toString`, or an array holding one |
| Actions.CreateDocument | ai-handler.js:87-134 | readable params lead to exactly one import request, built from them; unreadable params lead to none |
| Actions.CreateDocumentReportsImport | ai-handler.js:117-122 | an import returning a non-empty document ID is reported with a ✅, the document's name and a link ending in `https://feishu.cn/docx/<id>`. When the name has no string form, line 118 throws and the `catch` text for that `TypeError` is the reply. An import without an ID is reported as an API failure |
| Actions.CreatedTextShape | ai-handler.js:118 | the success text starts with ✅, names the document right after its header and ends with `https://feishu.cn/docx/<id>` |
| Actions.CreatedText | ai-handler.js:118 | the success report; its contract is `Actions.CreatedTextShape` |
| Actions.CreateDocumentFailureMarked | ai-handler.js:87-133 | after a rejected import or unreadable params the reply starts with ❌. The handler throws exactly when the error's `catch` throws. Unreadable params are answered with the engine's message for reading `title` of that value |
| Actions.CreateDocumentNamesNullishParams | ai-handler.js:94 | missing and `null` params get different replies whenever the engine's messages for reading `title` of `undefined` and of `null` differ |
| Actions.AppRequestFor | ai-handler.js:164-169 | the app's name is `params.name` when it is truthy, else `新建表格`; `folder_token` is passed through as read |
| Actions.TableRequestFor | ai-handler.js:174-185 | the table is created in the new app, named `params.table_name` or `数据表`, with `params.fields` or the default schema |
| Actions.CreateBitableSpec | ai-handler.js:161-192 | nothing escapes the handler. Unreadable params make no request. Otherwise the app is created first; when that is rejected or yields no token, nothing else is requested. Success, with the app's `https://feishu.cn/base/<token>` link, is reported exactly when the app has a token and the table creation succeeds; the one failure text is given otherwise |
| Actions.CreateBitableDefaultSchema | ai-handler.js:177-183 | without `fields` the table has exactly two fields, `标题` of type 1 and `状态` of type 3 |
| Actions.CreateBitable | ai-handler.js:161-192 | `createBitable`; its contract is `Actions.CreateBitableSpec`, including the requests on every failure path, and `Actions.CreateBitableDefaultSchema` |
| Actions.DocumentIdFor | ai-handler.js:196-203 | a string `document_id` is normalised. A missing one, or one with no `includes` (number, boolean, object, `null`), throws and nothing is fetched. An array is fetched unchanged unless it holds `feishu.cn` or `larksuite.com`, in which case `match` throws |
| Actions.ReadDocumentFailureGuides | ai-handler.js:194-231 | nothing escapes the handler and it fetches at most one document. Any failure yields the guidance text: before the fetch, of the fetch, or after it, when a truthy `search_keyword` is not a string and `toLowerCase` throws |
| Actions.ReadDocumentFetchesNormalisedId | ai-handler.js:196-207 | a string `document_id` is fetched as its normalised ID, once |
| Actions.ReadDocumentSummarises | ai-handler.js:224-225 | without a truthy keyword the reply is the summary header followed by the whole content when it has at most 500 characters, else by its first 500 characters and `...` |
| Actions.ReadDocumentSearches | ai-handler.js:211-221 | with a non-empty string keyword: when some line contains it, the reply is the found header followed by exactly the lines the search reports, one per line; otherwise the reply names the keyword as missing |
| Actions.ReadDocument | ai-handler.js:194-231 | `readDocument`; its contract is `Actions.DocumentIdFor` (which ID is fetched, if any), `Actions.ReadDocumentFailureGuides`, `Actions.ReadDocumentFetchesNormalisedId`, `Actions.ReadDocumentSummarises` and `Actions.ReadDocumentSearches` |
| Actions.DocumentReply | ai-handler.js:211-225 | the reply built from fetched content; its contract is `Actions.ReadDocumentSummarises`, `Actions.ReadDocumentSearches` and `Actions.ReadDocumentFailureGuides` |
| Actions.WikiTextSpec | ai-handler.js:327-341 | text is produced exactly when the lookup finds a node. It is `标题: <title>`, a newline, then `内容: ` and the content or `无文本内容`, whatever lines the content spans. For a title without a newline, that newline ends the first line |
| Actions.WikiText | ai-handler.js:327-341 | `readWikiContent`; its contract is `Actions.WikiTextSpec` |
| Dispatch.Decode | ai-handler.js:71-84 | destructuring fails exactly on `null`; otherwise the instruction carries the object's `action` and `params`, and it is unrecognised exactly when the action is not one of the four names |
| Dispatch.DecodeEncode | ai-handler.js:71-82 | every well-formed instruction is recovered from the object it is written as |
| Dispatch.EncodeDecode | ai-handler.js:71 | an object holding at most `action` and `params` is rebuilt from its decoded instruction |
| Dispatch.ReadWiki | ai-handler.js:327-341 | corrected `read_wiki`: a string `node_token` is looked up once, and the node's text or the unreadable-link text is the reply; without one nothing is fetched |
| Dispatch.Execute | ai-handler.js:70-85 | `executeInstruction` with `read_wiki` corrected; its contract is `Dispatch.KnownActionsRouted` (each action answered by its own handler), `Dispatch.ExecuteThrows` and `Dispatch.ExecuteServes` |
| Dispatch.ExecuteAsWritten | ai-handler.js:70-85 | `executeInstruction` as written; its contract is `Dispatch.AsWrittenAgreesElsewhere` and `Dispatch.ReadWikiAsWrittenEchoesReply` |
| Dispatch.Decoded | ai-handler.js:57-58 | a reply yields no instruction exactly when `JSON.parse` throws or gives `null` |
| Dispatch.Settle | ai-handler.js:60-62 | the inner `catch`: a handler that throws is answered with the model's reply, one that returns with its own text, and the platform requests made are kept |
| Dispatch.ProcessReply | ai-handler.js:56-63 | the tail of `processMessage`; its contract is `Dispatch.VerbatimFallback` and `Dispatch.ProcessReplyExecutes` |
| Dispatch.ProcessReplyAsWritten | ai-handler.js:56-63 | the same tail with `executeInstruction` as written; its contract is `Dispatch.ReadWikiAsWrittenEchoesReply` and `Dispatch.AsWrittenAgreesElsewhere` |
| Dispatch.ProcessReplyExecutes | ai-handler.js:57-58 | a reply that decodes to an instruction is answered by executing that instruction |
| Dispatch.ReadWikiDecodes | ai-handler.js:57-58 | a reply that parses to `{action: "read_wiki", params}` decodes to the `read_wiki` instruction carrying those params |
| Dispatch.VerbatimFallback | ai-handler.js:56-63 | a reply that is not an instruction reaches the user unchanged and touches no platform operation; so does one whose handler throws |
| Dispatch.ExecuteThrows | ai-handler.js:73-84 | a handler throws exactly in two cases: `create_document` when a rejected import makes the `catch` throw, and an unrecognised action without a string form |
| Dispatch.UnrecognisedEchoes | ai-handler.js:82-83 | an unknown action is answered with its echo, which names the action and the serialised params, and touches no platform operation, so the reply is the same whatever the platform. An action without a string form makes line 83 throw, and the model's reply is returned |
| Dispatch.Echo | ai-handler.js:83 | the echo throws exactly when the action has no string form. Otherwise it is `执行了操作: `, the action's string form, `，参数: ` and `JSON.stringify(params)` (or `undefined`), in that order and nothing else |
| Dispatch.KnownActionsRouted | ai-handler.js:73-81 | each of the four action names is answered by its own handler: the user sees that handler's reply, or the model's reply if it threw, and every platform request made belongs to that action's operations |
| Dispatch.ExecuteServes | ai-handler.js:73-84 | each handler issues only requests of its own kind |
| Dispatch.CreateDocumentEndToEnd | ai-handler.js:56-59 | a `create_document` reply imports exactly one document built from its params. Once the platform returns an ID, the reply ends with that document's link, or it is the `TypeError` text when the name has no string form |
| Dispatch.ReadWikiAsWrittenEchoesReply | ai-handler.js:78-79 | as written, every `read_wiki` instruction is answered with the model's raw reply and reads nothing |
| Dispatch.AsWrittenAgreesElsewhere | ai-handler.js:73-84 | apart from `read_wiki`, the written and the corrected dispatch give the same answer |
| Dispatch.ReadWikiCounterexample | ai-handler.js:78-79 | for `{"action":"read_wiki","params":{"node_token":"wikcnX"}}` the written code returns the JSON text itself, while the corrected code looks up `wikcnX` and returns `标题: T\n内容: C` |
| Dispatch.ReadWikiReadsNode | ai-handler.js:327-341 | corrected, a `read_wiki` with a string `node_token` looks that node up exactly once; the reply starts with `标题: ` exactly when the node exists |
| Dispatch.ReadWikiAnswersNode | ai-handler.js:327-334 | corrected, a `read_wiki` naming an existing node is answered after one lookup with `标题: <title>`, a newline and `内容: <content or 无文本内容>` |

## Left out

- `index.js` is not part of this model. It covers the connection to Lark, configuration, event handling and sending replies.
- The chat-completion calls (`ai-handler.js:38-54`, `309-314`) and the system prompt are left out. The model's reply is an input of `Dispatch.ProcessReply`.
- Every message holding a Feishu link goes to `handleFeishuLink` and never reaches instruction dispatch (`ai-handler.js:16-19`). `Links.ExtractFeishuLink` models that decision; `handleFeishuLink` itself is left out (next line). The outer `catch` of `processMessage` (`ai-handler.js:64-67`) only guards the chat-completion call, which is left out.
- `handleFeishuLink` is not modelled: it asks the chat model a second time (`ai-handler.js:309-314`), and its answer would be one more input. It also replies itself: `❌ 无法读取文档内容…` (`ai-handler.js:318`) when the fetched content is falsy, such as an empty document, and `❌ 处理文档链接时出现错误…` (`ai-handler.js:322`) on an error. `readDocumentContent` and `readBitableContent` are left out because only `handleFeishuLink` reaches them (`ai-handler.js:289-295`), outside instruction dispatch. `readWikiContent`'s formatting is modelled as `Actions.WikiText`.
- `searchDocuments` and `searchBitable` are not modelled. No action dispatches to them.
- Logging (`console.log`, `console.error`) is left out. It has no effect on replies.
- `JSON.parse`, `JSON.stringify`, the text of a non-string value that has one, each `TypeError`'s message and the clock are parameters (`Actions.Runtime`). Their exact output belongs to the JavaScript engine. When interpolation throws is modelled (`Json.ToPrimitiveThrows`); what it prints otherwise is not.
- Platform responses are reduced to the fields the handlers read. A created app whose `app_token` is missing is treated like a failed creation. The written code would go on and create a table in app `undefined`.
- `JSON.parse`'s numbers are `real`, so `-0` and `0` are one value. This only matters to `includes` on an array `document_id`, which compares with SameValueZero, where `-0` and `0` are equal anyway.
- Documents.SearchDocument: ignores case for the ASCII letters `A`-`Z` only. JavaScript's `toLowerCase` also folds other alphabets, and full Unicode case mapping is not modelled.
- Documents.Summary: lengths count characters. JavaScript counts UTF-16 code units, so content with characters outside the Basic Multilingual Plane is cut at a different point.

## Findings

| source | as written | input that shows it | evidently intended | confidence | as-written member | corrected member |
|---|---|---|---|---|---|---|
| ai-handler.js:78-79 | the `read_wiki` case calls `this.readWiki`, which the class never defines. The `TypeError` escapes `executeInstruction`, and the inner `catch` of `processMessage` hands the raw model reply back to the user | the model replies `{"action":"read_wiki","params":{"node_token":"wikcnX"}}` | look the node up through `readWikiContent(params.node_token)` and reply with its title and content | high, not executed | Dispatch.ReadWikiCounterexample | Dispatch.ReadWikiReadsNode |

=== FILE: actions.dfy ===
/** The bot's action handlers (`createDocument`, `readDocument`,
    `createBitable`) and the `readWikiContent` formatter, as pure functions.

    Every Lark platform call is a field of `Platform`: a function from the
    request the bot builds to the result the platform returns, with
    `Failure` standing for a rejected call. JavaScript engine behaviour the
    handlers rely on (the text of a non-string value, the message of each
    `TypeError` they catch, and the clock) is a field of `Runtime`. A handler returns the reply text, or
    `Threw` when an exception escapes its own `catch`, together with the
    platform requests it issued, in order. */
module Actions {
  import opened Wrappers
  import opened Text
  import opened Json
  import opened Documents

  /** What a rejected platform call carries: `error.message` and, for an
      HTTP error, `error.response` with its (possibly absent) `data`. */
  datatype ErrorResponse = ErrorResponse(data: Option<Json>)
  datatype PlatformError = PlatformError(message: string, response: Option<ErrorResponse>)

  /** Body of `docx/builtin/import`. */
  datatype ImportRequest = ImportRequest(fileName: Json, markdown: Json)
  /** Body of `bitable.v1.app.create`. */
  datatype AppRequest = AppRequest(name: Json, folderToken: Option<Json>)
  /** Path and body of `bitable.v1.appTable.create`. */
  datatype TableRequest = TableRequest(appToken: string, tableName: Json, fields: Json)

  /** A knowledge-base node as `wiki.v2.space.getNode` reports it. */
  datatype WikiNode = WikiNode(title: string, content: Option<string>)

  datatype Request =
    | Import(importRequest: ImportRequest)
    | RawContent(documentId: Json)
    | CreateApp(appRequest: AppRequest)
    | CreateTable(tableRequest: TableRequest)
    | GetNode(nodeToken: string)

  /** The platform's answers. `importDocument` yields `response.data.document_id`
      (`None` when the response lacks it); `rawContent` yields
      `response.data.content`; `createApp` yields `response.data.app.app_token`
      (`None` when the response has no `data.app`, so reading the token
      throws); `getNode` yields `response.data.node`. */
  datatype Platform = Platform(
    importDocument: ImportRequest -> Result<Option<string>, PlatformError>,
    rawContent: Json -> Result<string, PlatformError>,
    createApp: AppRequest -> Result<Option<string>, PlatformError>,
    createTable: TableRequest -> Result<(), PlatformError>,
    getNode: string -> Result<Option<WikiNode>, PlatformError>)

  /** Where the engine raises a `TypeError` that a handler's `catch`
      receives: reading `key` of `null` or `undefined` (`None`), and
      interpolating a value that has no primitive form. */
  datatype TypeErrorCause = ReadOfNullish(base: Option<Json>, key: string) | NoPrimitive(value: Json)

  /** `JSON.parse` (`None` when it throws), `JSON.stringify`, the text of a
      non-string value whose conversion does not throw, the message of the
      `TypeError` raised in each situation, and the current time as
      `toLocaleString('zh-CN')` prints it. */
  datatype Runtime = Runtime(
    parse: string -> Option<Json>,
    stringify: Json -> string,
    display: Json -> string,
    typeErrorMessage: TypeErrorCause -> string,
    now: string)

  datatype Exec = Returned(text: string) | Threw

  datatype Outcome = Outcome(exec: Exec, calls: seq<Request>)

  /** A value interpolated into a template literal: `None` when the
      conversion throws. */
  function Show(rt: Runtime, v: Option<Json>): (r: Option<string>)
    ensures r.None? <==> v.Some? && ToPrimitiveThrows(v.value)
    ensures v.None? ==> r == Some("undefined")
    ensures v.Some? && v.value.JStr? ==> r == Some(v.value.s)
  {
    match v
    case None => Some("undefined")
    case Some(JStr(s)) => Some(s)
    case Some(other) => if ToPrimitiveThrows(other) then None else Some(rt.display(other))
  }

  // ---------------------------------------------------------------- create_document

  const DefaultTitle := "测试文档"
  const DocumentUrlPrefix := "https://feishu.cn/docx/"
  const DocumentFailurePrefix := "❌ 创建文档失败："
  const DocumentApiFailure := "❌ 文档创建失败，API 返回异常。"
  const NetworkError := "网络错误"

  /** The markdown imported when the instruction supplies no content: a
      fixed test page with the creation time on its first list item. */
  function DefaultMarkdown(now: string): string {
    MarkdownHead + now + MarkdownTail
  }

  const MarkdownHead := "# 测试文档\n\n这是一个由 AI 机器人创建的测试文档。\n\n## 文档内容\n\n- 创建时间："
  const MarkdownTail :=
    "\n- 创建者：飞书 AI 机器人\n- 用途：功能测试\n\n## 示例内容\n\n这个文档可以用来测试机器人的文档创建功能。你可以：\n\n1. 编辑文档内容\n2. 添加更多信息\n3. 与团队成员协作\n\n**祝你使用愉快！** 🎉"


  /** The import request `createDocument` sends for readable `params`. */
  function DocumentRequest(rt: Runtime, params: Json): (r: ImportRequest)
    ensures Truthy(Get(params, "title")) ==> Some(r.fileName) == Get(params, "title")
    ensures !Truthy(Get(params, "title")) ==> r.fileName == JStr(DefaultTitle)
    ensures Truthy(Get(params, "content")) ==> Some(r.markdown) == Get(params, "content")
    ensures !Truthy(Get(params, "content")) ==> r.markdown == JStr(DefaultMarkdown(rt.now))
  {
    ImportRequest(Or(Get(params, "title"), JStr(DefaultTitle)), Or(Get(params, "content"), JStr(DefaultMarkdown(rt.now))))
  }

  /** The `msg` an HTTP error's response carries, when its `data` can be read. */
  function ErrorMsg(e: PlatformError): Option<Json>
    requires e.response.Some? && Readable(e.response.value.data)
  {
    Get(e.response.value.data.value, "msg")
  }

  /** Whether the `catch` of `createDocument` itself throws on `e`: reading
      `msg` of a missing `response.data`, or interpolating a truthy `msg`
      that has no primitive form. */
  predicate CatchThrows(e: PlatformError) {
    e.response.Some? &&
    (!Readable(e.response.value.data) || (Truthy(ErrorMsg(e)) && ToPrimitiveThrows(ErrorMsg(e).value)))
  }

  /** The `catch` of `createDocument`: the platform's `msg` or the error
      message for an HTTP error, the message or a network-error text
      otherwise. `None` when the catch itself throws. */
  function DocumentErrorText(rt: Runtime, e: PlatformError): (r: Option<string>)
    ensures r.None? <==> CatchThrows(e)
    ensures r.Some? ==> StartsAt(r.value, 0, DocumentFailurePrefix)
    ensures e.response.None? ==>
      r == Some(DocumentFailurePrefix + (if e.message != "" then e.message else NetworkError))
    ensures e.response.Some? && Readable(e.response.value.data) && !Truthy(ErrorMsg(e)) ==>
      r == Some(DocumentFailurePrefix + e.message)
    ensures e.response.Some? && Readable(e.response.value.data) && Truthy(ErrorMsg(e)) && r.Some? ==>
      Show(rt, ErrorMsg(e)).Some? && r == Some(DocumentFailurePrefix + Show(rt, ErrorMsg(e)).value)
  {
    var detail :=
      if e.response.Some? then
        var data := e.response.value.data;
        if !Readable(data) then None
        else
          var msg := Get(data.value, "msg");
          if Truthy(msg) then Show(rt, msg) else Some(e.message)
      else Some(if e.message != "" then e.message else NetworkError);
    match detail
    case None => None
    case Some(d) => assert (DocumentFailurePrefix + d)[..|DocumentFailurePrefix|] == DocumentFailurePrefix; Some(DocumentFailurePrefix + d)
  }

  /** The reply of `createDocument`'s `catch` for a `TypeError` raised in
      its `try`: such an error has no `response`. */
  function TypeErrorText(rt: Runtime, cause: TypeErrorCause): (r: string)
    ensures StartsAt(r, 0, DocumentFailurePrefix)
    ensures var m := rt.typeErrorMessage(cause);
      r[|DocumentFailurePrefix|..] == if m != "" then m else NetworkError
  {
    var text := DocumentErrorText(rt, PlatformError(rt.typeErrorMessage(cause), None)).value;
    assert text[|DocumentFailurePrefix|..] == if rt.typeErrorMessage(cause) != "" then rt.typeErrorMessage(cause) else NetworkError;
    text
  }

  const CreatedHead := "✅ 文档创建成功！\n📄 文档名称："
  const CreatedLinkLabel := "\n🔗 文档链接："

  /** The success report for the document `name` with ID `id`. */
  function CreatedText(name: string, id: string): string {
    CreatedHead + name + CreatedLinkLabel + DocumentUrlPrefix + id
  }

  /** The success report starts with ✅, names the document and ends with
      its viewer link. */
  lemma CreatedTextShape(name: string, id: string)
    ensures var text := CreatedText(name, id);
      StartsAt(text, 0, "✅") && StartsAt(text, |CreatedHead|, name) &&
      StartsAt(text, |text| - |DocumentUrlPrefix + id|, DocumentUrlPrefix + id)
  {
    var text := CreatedText(name, id);
    assert text[..1] == CreatedHead[..1] == "✅";
    assert text[|CreatedHead|..|CreatedHead| + |name|] == name;
    assert text[|text| - |DocumentUrlPrefix + id|..] == DocumentUrlPrefix + id;
  }

  /** `createDocument`. */
  function CreateDocument(rt: Runtime, pf: Platform, params: Option<Json>): (r: Outcome)
    ensures !Readable(params) ==> r.calls == []
    ensures Readable(params) ==> r.calls == [Import(DocumentRequest(rt, params.value))]
  {
    if !Readable(params) then
      Outcome(Returned(TypeErrorText(rt, ReadOfNullish(params, "title"))), [])
    else
      var request := DocumentRequest(rt, params.value);
      var exec :=
        match pf.importDocument(request)
        case Success(id) =>
          if id.Some? && id.value != "" then
            match Show(rt, Some(request.fileName))
            case Some(name) => Returned(CreatedText(name, id.value))
            case None => Returned(TypeErrorText(rt, NoPrimitive(request.fileName)))
          else Returned(DocumentApiFailure)
        case Failure(e) =>
          match DocumentErrorText(rt, e)
          case Some(text) => Returned(text)
          case None => Threw;
      Outcome(exec, [Import(request)])
  }

  // ---------------------------------------------------------------- create_bitable

  const DefaultAppName := "新建表格"
  const DefaultTableName := "数据表"
  const BaseUrlPrefix := "https://feishu.cn/base/"
  const BitableCreatedHead := "✅ 多维表格创建成功！\n表格链接: "
  const BitableFailure := "❌ 创建表格失败，请检查权限设置。"

  /** Field type codes of the Lark bitable API. */
  const TextFieldType: real := 1.0
  const SingleSelectFieldType: real := 3.0

  function FieldSpec(name: string, fieldType: real): Json {
    JObj(map["field_name" := JStr(name), "type" := JNum(fieldType)])
  }

  /** The schema used when the instruction supplies no `fields`: a text
      field `标题` and a single-select field `状态`. */
  const DefaultFields: Json := JArr([FieldSpec("标题", TextFieldType), FieldSpec("状态", SingleSelectFieldType)])

  /** The app-creation request of `createBitable` for readable `params`. */
  function AppRequestFor(params: Json): (r: AppRequest)
    ensures Truthy(Get(params, "name")) ==> Some(r.name) == Get(params, "name")
    ensures !Truthy(Get(params, "name")) ==> r.name == JStr(DefaultAppName)
    ensures r.folderToken == Get(params, "folder_token")
  {
    AppRequest(Or(Get(params, "name"), JStr(DefaultAppName)), Get(params, "folder_token"))
  }

  /** The table-creation request of `createBitable` inside the app `appToken`. */
  function TableRequestFor(params: Json, appToken: string): (r: TableRequest)
    ensures r.appToken == appToken
    ensures Truthy(Get(params, "table_name")) ==> Some(r.tableName) == Get(params, "table_name")
    ensures !Truthy(Get(params, "table_name")) ==> r.tableName == JStr(DefaultTableName)
    ensures Truthy(Get(params, "fields")) ==> Some(r.fields) == Get(params, "fields")
    ensures !Truthy(Get(params, "fields")) ==> r.fields == DefaultFields
  {
    TableRequest(appToken, Or(Get(params, "table_name"), JStr(DefaultTableName)), Or(Get(params, "fields"), DefaultFields))
  }

  /** `createBitable`. */
  function CreateBitable(pf: Platform, params: Option<Json>): Outcome {
    if !Readable(params) then Outcome(Returned(BitableFailure), [])
    else
      var appRequest := AppRequestFor(params.value);
      match pf.createApp(appRequest)
      case Failure(_) => Outcome(Returned(BitableFailure), [CreateApp(appRequest)])
      case Success(None) => Outcome(Returned(BitableFailure), [CreateApp(appRequest)])
      case Success(Some(appToken)) =>
        var tableRequest := TableRequestFor(params.value, appToken);
        var text :=
          match pf.createTable(tableRequest)
          case Failure(_) => BitableFailure
          case Success(_) => BitableCreatedHead + BaseUrlPrefix + appToken;
        Outcome(Returned(text), [CreateApp(appRequest), CreateTable(tableRequest)])
  }

  // ---------------------------------------------------------------- read_document

  const DocumentGuidance :=
    "❌ 无法读取文档。机器人只能访问明确共享给它的文档。建议：\n1. 将文档内容复制给我分析\n2. 在文档中添加机器人为协作者\n3. 使用我创建新的管理文档"

  /** The document ID `readDocument` passes to the platform, or `None` when
      computing it throws: `includes` is called on `document_id`, which only
      strings and arrays have, and an array that contains one of the host
      names then fails on `match`. */
  function DocumentIdFor(params: Json): (r: Option<Json>)
    ensures (exists id :: Get(params, "document_id") == Some(JStr(id))) ==>
      r == Some(JStr(NormaliseDocumentId(Get(params, "document_id").value.s)))
    ensures r.Some? ==> Get(params, "document_id").Some?
    ensures (Get(params, "document_id").None? ||
             (!Get(params, "document_id").value.JStr? && !Get(params, "document_id").value.JArr?)) ==>
      r.None?
    ensures Get(params, "document_id").Some? && Get(params, "document_id").value.JArr? ==>
      var items := Get(params, "document_id").value.items;
      (r.None? <==> JStr(FeishuHost) in items || JStr(LarkHost) in items) &&
      (r.Some? ==> r.value == JArr(items))
  {
    match Get(params, "document_id")
    case Some(JStr(id)) => Some(JStr(NormaliseDocumentId(id)))
    case Some(JArr(items)) =>
      if JStr(FeishuHost) in items || JStr(LarkHost) in items then None else Some(JArr(items))
    case _ => None
  }

  /** The reply built from the document's text: the keyword search when
      `search_keyword` is truthy (it must then be a string, or
      `toLowerCase` throws), the summary otherwise. */
  function DocumentReply(params: Json, content: string): string {
    var keyword := Get(params, "search_keyword");
    if Truthy(keyword) then
      match keyword.value
      case JStr(k) => KeywordReply(SearchDocument(content, k))
      case _ => DocumentGuidance
    else SummaryReply(content)
  }

  /** `readDocument`. */
  function ReadDocument(pf: Platform, params: Option<Json>): Outcome {
    if !Readable(params) then Outcome(Returned(DocumentGuidance), [])
    else
      match DocumentIdFor(params.value)
      case None => Outcome(Returned(DocumentGuidance), [])
      case Some(id) =>
        var text :=
          match pf.rawContent(id)
          case Failure(_) => DocumentGuidance
          case Success(content) => DocumentReply(params.value, content);
        Outcome(Returned(text), [RawContent(id)])
  }

  // ---------------------------------------------------------------- readWikiContent

  const NoTextContent := "无文本内容"
  const TitleLabel := "标题: "
  const ContentLabel := "内容: "

  /** `readWikiContent`: the node's title and content (or a placeholder
      when it has none), `None` when the lookup fails or finds no node. */
  function WikiText(result: Result<Option<WikiNode>, PlatformError>): Option<string> {
    match result
    case Success(Some(node)) =>
      Some(TitleLabel + node.title + "\n" + ContentLabel + WikiBody(node))
    case _ => None
  }

  // ---------------------------------------------------------------- handler properties

  /** A successful import is reported with the document's name (the
      title, or the default title) and a link built from the returned
      document ID; a response without an ID is reported as an API failure.
      A name with no string form makes the success report throw inside the
      `try`, and the `catch` answers with that `TypeError`. */
  lemma CreateDocumentReportsImport(rt: Runtime, pf: Platform, params: Option<Json>)
    requires Readable(params)
    ensures var request := DocumentRequest(rt, params.value);
      var r := CreateDocument(rt, pf, params);
      match pf.importDocument(request)
      case Success(Some(id)) =>
        if id == "" then r.exec == Returned(DocumentApiFailure)
        else if ToPrimitiveThrows(request.fileName) then
          r.exec == Returned(TypeErrorText(rt, NoPrimitive(request.fileName))) &&
          StartsAt(r.exec.text, 0, DocumentFailurePrefix)
        else
          r.exec.Returned? && StartsAt(r.exec.text, 0, "✅") &&
          Contains(r.exec.text, Show(rt, Some(request.fileName)).value) &&
          StartsAt(r.exec.text, |r.exec.text| - |DocumentUrlPrefix + id|, DocumentUrlPrefix + id)
      case Success(None) => r.exec == Returned(DocumentApiFailure)
      case Failure(_) => true
  {
    var request := DocumentRequest(rt, params.value);
    match pf.importDocument(request)
    case Success(Some(id)) =>
      if id != "" && !ToPrimitiveThrows(request.fileName) {
        var name := Show(rt, Some(request.fileName)).value;
        assert CreateDocument(rt, pf, params).exec == Returned(CreatedText(name, id));
        CreatedTextShape(name, id);
      }
    case Success(None) =>
    case Failure(_) =>
  }


  /** When the import call is rejected, the reply starts with the failure
      mark, unless the `catch` itself throws: the error has a `response`
      without `data`, or a truthy `msg` with no string form. Without
      readable params, the reply carries the engine's message for reading
      `title` of that very value. */
  lemma CreateDocumentFailureMarked(rt: Runtime, pf: Platform, params: Option<Json>)
    requires !Readable(params) || pf.importDocument(DocumentRequest(rt, params.value)).Failure?
    ensures var r := CreateDocument(rt, pf, params);
      (r.exec.Threw? <==>
        (Readable(params) && CatchThrows(pf.importDocument(DocumentRequest(rt, params.value)).error))) &&
      (r.exec.Returned? ==> StartsAt(r.exec.text, 0, "❌"))
    ensures !Readable(params) ==>
      CreateDocument(rt, pf, params).exec == Returned(TypeErrorText(rt, ReadOfNullish(params, "title")))
  {
    var r := CreateDocument(rt, pf, params);
    if r.exec.Returned? {
      assert StartsAt(r.exec.text, 0, DocumentFailurePrefix);
      assert r.exec.text[..|"❌"|] == DocumentFailurePrefix[..|"❌"|];
    }
  }

  /** Missing params and `null` params are told apart: each reply carries
      the engine's own message for reading `title` of that value
      (`undefined` or `null`). */
  lemma CreateDocumentNamesNullishParams(rt: Runtime, pf: Platform)
    requires rt.typeErrorMessage(ReadOfNullish(None, "title")) != ""
    requires rt.typeErrorMessage(ReadOfNullish(Some(JNull), "title")) != ""
    requires rt.typeErrorMessage(ReadOfNullish(None, "title")) != rt.typeErrorMessage(ReadOfNullish(Some(JNull), "title"))
    ensures CreateDocument(rt, pf, None).exec != CreateDocument(rt, pf, Some(JNull)).exec
  {
    CreateDocumentFailureMarked(rt, pf, None);
    CreateDocumentFailureMarked(rt, pf, Some(JNull));
    var a := TypeErrorText(rt, ReadOfNullish(None, "title"));
    var b := TypeErrorText(rt, ReadOfNullish(Some(JNull), "title"));
    assert a[|DocumentFailurePrefix|..] != b[|DocumentFailurePrefix|..];
  }

  /** `createBitable` never lets an exception escape. It creates the app
      and then, once the app has a token, the table in it; it reports
      success, with the app's link, exactly when both calls succeed, and
      the one failure text otherwise. */
  lemma CreateBitableSpec(pf: Platform, params: Option<Json>)
    ensures var r := CreateBitable(pf, params);
      r.exec.Returned? &&
      (r.exec.text == BitableFailure || StartsAt(r.exec.text, 0, "✅")) &&
      (Readable(params) ==> |r.calls| >= 1 && r.calls[0] == CreateApp(AppRequestFor(params.value))) &&
      (!Readable(params) ==> r.calls == []) &&
      (Readable(params) ==>
       var app := pf.createApp(AppRequestFor(params.value));
       !(app.Success? && app.value.Some?) ==> r.calls == [CreateApp(AppRequestFor(params.value))]) &&
      (StartsAt(r.exec.text, 0, "✅") <==>
        Readable(params) &&
        var app := pf.createApp(AppRequestFor(params.value));
        app.Success? && app.value.Some? &&
        r.calls == [CreateApp(AppRequestFor(params.value)), CreateTable(TableRequestFor(params.value, app.value.value))] &&
        pf.createTable(TableRequestFor(params.value, app.value.value)).Success? &&
        r.exec.text == BitableCreatedHead + BaseUrlPrefix + app.value.value)
  {
    var r := CreateBitable(pf, params);
    assert BitableFailure[0] != "✅"[0];
    if r.exec.text != BitableFailure {
      assert r.exec.text[..|"✅"|] == "✅";
    }
  }

  /** With no `fields` in the instruction, the table is created with
      exactly the two default fields: `标题` of type 1 (text) and `状态` of
      type 3 (single select). */
  lemma CreateBitableDefaultSchema(pf: Platform, params: Json)
    requires params != JNull && !Truthy(Get(params, "fields"))
    requires pf.createApp(AppRequestFor(params)).Success? && pf.createApp(AppRequestFor(params)).value.Some?
    ensures var r := CreateBitable(pf, Some(params));
      |r.calls| == 2 && r.calls[1].CreateTable? &&
      var fields := r.calls[1].tableRequest.fields;
      fields.JArr? && |fields.items| == 2 &&
      fields.items[0] == JObj(map["field_name" := JStr("标题"), "type" := JNum(1.0)]) &&
      fields.items[1] == JObj(map["field_name" := JStr("状态"), "type" := JNum(3.0)])
  {
  }

  /** `readDocument` never lets an exception escape; it fetches at most one
      document, and any failure, of the fetch, before it or after it,
      yields the guidance text. After a successful fetch, a truthy
      `search_keyword` that is not a string has no `toLowerCase` and throws. */
  lemma ReadDocumentFailureGuides(pf: Platform, params: Option<Json>)
    ensures var r := ReadDocument(pf, params);
      r.exec.Returned? && |r.calls| <= 1 &&
      (r.calls == [] ==> r.exec.text == DocumentGuidance) &&
      (r.calls != [] ==>
        (r.calls[0].RawContent? &&
         (pf.rawContent(r.calls[0].documentId).Failure? ==> r.exec.text == DocumentGuidance)))
    ensures (Readable(params) && Truthy(Get(params.value, "search_keyword")) &&
             !Get(params.value, "search_keyword").value.JStr?) ==>
      ReadDocument(pf, params).exec == Returned(DocumentGuidance)
  {
  }

  /** A string `document_id` is normalised before it is fetched: the fetch
      asks for the bare `/docx/` token of a Feishu or Lark URL. */
  lemma ReadDocumentFetchesNormalisedId(pf: Platform, params: Json, id: string)
    requires Get(params, "document_id") == Some(JStr(id))
    ensures ReadDocument(pf, Some(params)).calls == [RawContent(JStr(NormaliseDocumentId(id)))]
  {
  }

  /** Without a keyword, the fetched content is answered with its summary:
      whole when it has at most 500 characters, else its first 500
      characters and `...`. */
  lemma ReadDocumentSummarises(pf: Platform, params: Json, content: string)
    requires params != JNull && DocumentIdFor(params).Some?
    requires pf.rawContent(DocumentIdFor(params).value) == Success(content)
    requires !Truthy(Get(params, "search_keyword"))
    ensures var text := ReadDocument(pf, Some(params)).exec.text;
      StartsAt(text, 0, SummaryHeader) &&
      (|content| <= SummaryLength ==> text[|SummaryHeader|..] == content) &&
      (|content| > SummaryLength ==> text[|SummaryHeader|..] == content[..SummaryLength] + Ellipsis)
  {
    var text := ReadDocument(pf, Some(params)).exec.text;
    assert text == SummaryHeader + Summary(content);
    assert text[..|SummaryHeader|] == SummaryHeader;
    assert text[|SummaryHeader|..] == Summary(content);
  }

  /** With a string keyword, the reply lists, after its header and one per
      line, the lines the search reports when some line contains the
      keyword, and names the keyword when none does. */
  lemma ReadDocumentSearches(pf: Platform, params: Json, content: string, keyword: string)
    requires params != JNull && DocumentIdFor(params).Some?
    requires pf.rawContent(DocumentIdFor(params).value) == Success(content)
    requires Get(params, "search_keyword") == Some(JStr(keyword)) && keyword != ""
    ensures var text := ReadDocument(pf, Some(params)).exec.text;
      SomeLineMatches(Split(content, '\n'), keyword) ==>
        StartsAt(text, 0, FoundHeader) &&
        Split(text[|FoundHeader|..], '\n') == SearchDocument(content, keyword).lines
    ensures var text := ReadDocument(pf, Some(params)).exec.text;
      !SomeLineMatches(Split(content, '\n'), keyword) ==>
        text == NotFoundText(keyword)
  {
    var text := ReadDocument(pf, Some(params)).exec.text;
    assert text == KeywordReply(SearchDocument(content, keyword));
    if SomeLineMatches(Split(content, '\n'), keyword) {
      KeywordReplyLines(content, keyword);
    }
  }

  /** The content `readWikiContent` reports for a node: its text, or the
      placeholder when it has none or an empty one. */
  function WikiBody(node: WikiNode): string {
    if node.content.Some? && node.content.value != "" then node.content.value else NoTextContent
  }

  /** `readWikiContent` yields text exactly when the lookup finds a node.
      For a title without a newline, the text's first line is the labelled
      title and everything after that newline is the labelled content, or
      the placeholder, whatever lines the content spans; when the content
      is one line as well, the text is exactly those two lines. */
  lemma WikiTextSpec(result: Result<Option<WikiNode>, PlatformError>)
    ensures WikiText(result).Some? <==> result.Success? && result.value.Some?
    ensures result.Success? && result.value.Some? ==>
      var node := result.value.value;
      var text := WikiText(result).value;
      var k := |TitleLabel + node.title|;
      WikiBody(node) != "" && k < |text| &&
      text[..k] == TitleLabel + node.title && text[k] == '\n' &&
      text[k + 1..] == ContentLabel + WikiBody(node) &&
      ('\n' !in node.title ==> '\n' !in text[..k])
    ensures result.Success? && result.value.Some? ==>
      var node := result.value.value;
      ('\n' !in node.title && '\n' !in WikiBody(node) ==>
        Split(WikiText(result).value, '\n') == [TitleLabel + node.title, ContentLabel + WikiBody(node)])
  {
    if result.Success? && result.value.Some? {
      var node := result.value.value;
      var body := WikiBody(node);
      var title := TitleLabel + node.title;
      var text := ContentLabel + body;
      assert WikiText(result).value == title + "\n" + text;
      assert '\n' !in TitleLabel && '\n' !in ContentLabel;
      if '\n' !in node.title && '\n' !in body {
        SplitTwo(title, text, '\n');
      }
    }
  }

}

=== FILE: dispatch.dfy ===
/** `executeInstruction` and the tail of `processMessage`: the model's reply
    is parsed as JSON, destructured into `{action, params}` and dispatched
    on the action name; a reply that does not parse, or whose handling
    throws past the handler's own `catch`, is returned to the user as it
    stands.

    The decoded instruction is the closed union `Instruction`: one variant
    per action the bot knows and `Unrecognised` for every other action
    value, which is echoed back without touching the platform. */
module Dispatch {
  import opened Wrappers
  import opened Text
  import opened Json
  import opened Actions

  const CreateDocumentName := "create_document"
  const ReadDocumentName := "read_document"
  const ReadWikiName := "read_wiki"
  const CreateBitableName := "create_bitable"

  /** The action values that select a handler. */
  predicate IsKnownAction(action: Option<Json>) {
    action in {Some(JStr(CreateDocumentName)), Some(JStr(ReadDocumentName)),
               Some(JStr(ReadWikiName)), Some(JStr(CreateBitableName))}
  }

  /** `params` is `None` when the instruction has none (`undefined`). */
  datatype Instruction =
    | CreateDocumentAction(params: Option<Json>)
    | ReadDocumentAction(params: Option<Json>)
    | ReadWikiAction(params: Option<Json>)
    | CreateBitableAction(params: Option<Json>)
    | Unrecognised(action: Option<Json>, params: Option<Json>)

  /** The `action` value an instruction was decoded from. */
  function ActionOf(i: Instruction): Option<Json> {
    match i
    case CreateDocumentAction(_) => Some(JStr(CreateDocumentName))
    case ReadDocumentAction(_) => Some(JStr(ReadDocumentName))
    case ReadWikiAction(_) => Some(JStr(ReadWikiName))
    case CreateBitableAction(_) => Some(JStr(CreateBitableName))
    case Unrecognised(action, _) => action
  }

  /** An instruction some decoded value can produce: an `Unrecognised`
      action is not one of the known names. */
  predicate WellFormed(i: Instruction) {
    i.Unrecognised? ==> !IsKnownAction(i.action)
  }

  /** `const { action, params } = instruction; switch (action) ...`:
      destructuring throws on `null` (`None`); on any other value the two
      properties are read, and the action selects the variant by strict
      equality with the known names. */
  function Decode(v: Json): (r: Option<Instruction>)
    ensures r.None? <==> v == JNull
    ensures r.Some? ==> WellFormed(r.value)
    ensures r.Some? ==> ActionOf(r.value) == Get(v, "action") && r.value.params == Get(v, "params")
    ensures r.Some? ==> (r.value.Unrecognised? <==> !IsKnownAction(Get(v, "action")))
  {
    if v == JNull then None
    else
      var action := Get(v, "action");
      var params := Get(v, "params");
      if action == Some(JStr(CreateDocumentName)) then Some(CreateDocumentAction(params))
      else if action == Some(JStr(ReadDocumentName)) then Some(ReadDocumentAction(params))
      else if action == Some(JStr(ReadWikiName)) then Some(ReadWikiAction(params))
      else if action == Some(JStr(CreateBitableName)) then Some(CreateBitableAction(params))
      else Some(Unrecognised(action, params))
  }

  /** The JSON object an instruction is written as, leaving out absent
      properties. */
  function Encode(i: Instruction): Json {
    var withAction := if ActionOf(i).Some? then map["action" := ActionOf(i).value] else map[];
    JObj(if i.params.Some? then withAction["params" := i.params.value] else withAction)
  }

  /** Decoding inverts encoding: every well-formed instruction is recovered
      from the object it is written as. */
  lemma DecodeEncode(i: Instruction)
    requires WellFormed(i)
    ensures Decode(Encode(i)) == Some(i)
  {
    var v := Encode(i);
    assert Get(v, "action") == ActionOf(i);
    assert Get(v, "params") == i.params;
  }

  /** Encoding inverts decoding on objects holding at most `action` and
      `params`. */
  lemma EncodeDecode(v: Json)
    requires v.JObj? && v.fields.Keys <= {"action", "params"}
    ensures Decode(v).Some? && Encode(Decode(v).value) == v
  {
    var i := Decode(v).value;
    var m := Encode(i).fields;
    assert m.Keys == v.fields.Keys;
    forall k | k in m
      ensures m[k] == v.fields[k]
    {
    }
  }

  const EchoHead := "执行了操作: "
  const EchoParams := "，参数: "

  /** `JSON.stringify(params)` as a template literal prints it: `undefined`
      when there are no params. */
  function Serialised(rt: Runtime, params: Option<Json>): string {
    if params.Some? then rt.stringify(params.value) else "undefined"
  }

  /** The reply to an unrecognised action: the head, the action's string
      form, the params label and the serialised params, in that order and
      nothing else; `None` when the action has no string form and the
      template literal throws. */
  function Echo(rt: Runtime, action: Option<Json>, params: Option<Json>): (r: Option<string>)
    ensures r.None? <==> action.Some? && ToPrimitiveThrows(action.value)
    ensures r.Some? ==>
      var a := Show(rt, action).value;
      var p := Serialised(rt, params);
      var i := |EchoHead| + |a|;
      var j := i + |EchoParams|;
      |r.value| == j + |p| &&
      r.value[..|EchoHead|] == EchoHead &&
      r.value[|EchoHead|..i] == a &&
      r.value[i..j] == EchoParams &&
      r.value[j..] == p
  {
    match Show(rt, action)
    case None => None
    case Some(a) =>
      var p := Serialised(rt, params);
      var text := EchoHead + a + EchoParams + p;
      var i := |EchoHead| + |a|;
      assert text[..|EchoHead|] == EchoHead;
      assert text[|EchoHead|..i] == a;
      assert text[i..i + |EchoParams|] == EchoParams;
      assert text[i + |EchoParams|..] == p;
      Some(text)
  }

  // ---------------------------------------------------------------- read_wiki

  const LinkReadFailure := "❌ 无法读取文档内容，请检查链接或权限设置。"

  /** The `read_wiki` handler as evidently intended: look the node up by
      `node_token` through `readWikiContent` and reply with its text, or
      with the bot's failure text for unreadable content. */
  function ReadWiki(pf: Platform, params: Option<Json>): (r: Outcome)
    ensures r.exec.Returned?
    ensures (Readable(params) && exists t :: Get(params.value, "node_token") == Some(JStr(t))) ==>
      r.calls == [GetNode(Get(params.value, "node_token").value.s)] &&
      var found := WikiText(pf.getNode(Get(params.value, "node_token").value.s));
      r.exec.text == if found.Some? then found.value else LinkReadFailure
    ensures !(Readable(params) && exists t :: Get(params.value, "node_token") == Some(JStr(t))) ==>
      r == Outcome(Returned(LinkReadFailure), [])
  {
    if !Readable(params) then Outcome(Returned(LinkReadFailure), [])
    else
      match Get(params.value, "node_token")
      case Some(JStr(token)) =>
        var text := match WikiText(pf.getNode(token)) case Some(t) => t case None => LinkReadFailure;
        Outcome(Returned(text), [GetNode(token)])
      case _ => Outcome(Returned(LinkReadFailure), [])
  }

  // ---------------------------------------------------------------- dispatch

  /** `executeInstruction`, with `read_wiki` routed to `ReadWiki`. */
  function Execute(rt: Runtime, pf: Platform, i: Instruction): Outcome {
    match i
    case CreateDocumentAction(params) => CreateDocument(rt, pf, params)
    case ReadDocumentAction(params) => ReadDocument(pf, params)
    case ReadWikiAction(params) => ReadWiki(pf, params)
    case CreateBitableAction(params) => CreateBitable(pf, params)
    case Unrecognised(action, params) =>
      match Echo(rt, action, params)
      case Some(text) => Outcome(Returned(text), [])
      case None => Outcome(Threw, [])
  }

  /** `executeInstruction` as written: the `read_wiki` case calls
      `this.readWiki`, which the class never defines, so the call throws a
      `TypeError` before any platform request. */
  function ExecuteAsWritten(rt: Runtime, pf: Platform, i: Instruction): Outcome {
    match i
    case ReadWikiAction(_) => Outcome(Threw, [])
    case _ => Execute(rt, pf, i)
  }

  /** The user-visible result of handling one model reply. */
  datatype Reply = Reply(text: string, calls: seq<Request>)

  /** `JSON.parse(reply)` followed by destructuring; `None` when either throws. */
  function Decoded(rt: Runtime, reply: string): (r: Option<Instruction>)
    ensures r.None? <==> rt.parse(reply).None? || rt.parse(reply) == Some(JNull)
  {
    match rt.parse(reply)
    case None => None
    case Some(v) => Decode(v)
  }

  /** The inner `catch` of `processMessage`: an exception escaping the
      handler turns into the model's reply, verbatim. */
  function Settle(reply: string, o: Outcome): (r: Reply)
    ensures r.calls == o.calls
    ensures o.exec.Threw? ==> r.text == reply
    ensures o.exec.Returned? ==> r.text == o.exec.text
  {
    match o.exec
    case Threw => Reply(reply, o.calls)
    case Returned(text) => Reply(text, o.calls)
  }

  /** The tail of `processMessage` once the model has replied. */
  function ProcessReply(rt: Runtime, pf: Platform, reply: string): Reply {
    match Decoded(rt, reply)
    case None => Reply(reply, [])
    case Some(i) => Settle(reply, Execute(rt, pf, i))
  }

  /** The same with `executeInstruction` as written. */
  function ProcessReplyAsWritten(rt: Runtime, pf: Platform, reply: string): Reply {
    match Decoded(rt, reply)
    case None => Reply(reply, [])
    case Some(i) => Settle(reply, ExecuteAsWritten(rt, pf, i))
  }

  // ---------------------------------------------------------------- properties

  /** A reply that does not decode to an instruction reaches the user
      unchanged and touches no platform operation; so does one whose
      handler throws past its own `catch`. */
  lemma VerbatimFallback(rt: Runtime, pf: Platform, reply: string)
    ensures Decoded(rt, reply).None? ==> ProcessReply(rt, pf, reply) == Reply(reply, [])
    ensures Decoded(rt, reply).Some? && Execute(rt, pf, Decoded(rt, reply).value).exec.Threw? ==>
      ProcessReply(rt, pf, reply).text == reply
  {
  }

  /** Exactly two instructions throw past their handler: `create_document`
      when a rejected import's error makes the `catch` itself throw (a
      `response` without `data`, or a truthy `msg` with no string form),
      and an unrecognised action with no string form. Every other
      instruction is answered by its handler. */
  lemma ExecuteThrows(rt: Runtime, pf: Platform, i: Instruction)
    ensures Execute(rt, pf, i).exec.Threw? <==>
      (i.CreateDocumentAction? && Readable(i.params) &&
       var e := pf.importDocument(DocumentRequest(rt, i.params.value));
       e.Failure? && CatchThrows(e.error)) ||
      (i.Unrecognised? && i.action.Some? && ToPrimitiveThrows(i.action.value))
  {
  }

  /** An unrecognised action is echoed back, naming the action and the
      serialised params, whatever the platform would have answered: no
      platform operation is involved. An action with no string form makes
      the echo throw, and the model's reply is returned instead. */
  lemma UnrecognisedEchoes(rt: Runtime, pf1: Platform, pf2: Platform, reply: string, action: Option<Json>, params: Option<Json>)
    requires Decoded(rt, reply) == Some(Unrecognised(action, params))
    ensures !(action.Some? && ToPrimitiveThrows(action.value)) ==>
      ProcessReply(rt, pf1, reply) == Reply(Echo(rt, action, params).value, []) &&
      StartsAt(ProcessReply(rt, pf1, reply).text, 0, EchoHead)
    ensures action.Some? && ToPrimitiveThrows(action.value) ==>
      ProcessReply(rt, pf1, reply) == Reply(reply, [])
    ensures ProcessReply(rt, pf1, reply) == ProcessReply(rt, pf2, reply)
    ensures !IsKnownAction(action)
  {
  }

  /** The platform operations each action may use. */
  predicate Serves(i: Instruction, c: Request) {
    match i
    case CreateDocumentAction(_) => c.Import?
    case ReadDocumentAction(_) => c.RawContent?
    case ReadWikiAction(_) => c.GetNode?
    case CreateBitableAction(_) => c.CreateApp? || c.CreateTable?
    case Unrecognised(_, _) => false
  }

  /** Each known action is sent to its own handler: every platform request
      made while answering belongs to that action's operations, and the
      user sees the handler's reply (or the model's reply if it threw). */
  lemma KnownActionsRouted(rt: Runtime, pf: Platform, reply: string)
    requires Decoded(rt, reply).Some?
    ensures var i := Decoded(rt, reply).value;
      var r := ProcessReply(rt, pf, reply);
      forall k :: 0 <= k < |r.calls| ==> Serves(i, r.calls[k])
    ensures var i := Decoded(rt, reply).value;
      var r := ProcessReply(rt, pf, reply);
      (i.CreateDocumentAction? ==> r == Settle(reply, CreateDocument(rt, pf, i.params))) &&
      (i.ReadDocumentAction? ==> r == Settle(reply, ReadDocument(pf, i.params))) &&
      (i.ReadWikiAction? ==> r == Settle(reply, ReadWiki(pf, i.params))) &&
      (i.CreateBitableAction? ==> r == Settle(reply, CreateBitable(pf, i.params)))
  {
    ExecuteServes(rt, pf, Decoded(rt, reply).value);
  }

  /** `KnownActionsRouted` for one decoded instruction. */
  lemma ExecuteServes(rt: Runtime, pf: Platform, i: Instruction)
    ensures var calls := Execute(rt, pf, i).calls;
      forall k :: 0 <= k < |calls| ==> Serves(i, calls[k])
  {
    var calls := Execute(rt, pf, i).calls;
    match i
    case CreateDocumentAction(params) =>
      assert calls == CreateDocument(rt, pf, params).calls;
    case ReadDocumentAction(params) =>
      assert calls == ReadDocument(pf, params).calls;
      ReadDocumentFailureGuides(pf, params);
    case ReadWikiAction(params) =>
      assert calls == ReadWiki(pf, params).calls;
    case CreateBitableAction(params) =>
      assert calls == CreateBitable(pf, params).calls;
      assert |calls| <= 2 && (|calls| >= 1 ==> calls[0].CreateApp?) && (|calls| == 2 ==> calls[1].CreateTable?);
    case Unrecognised(_, _) =>
  }

  /** End to end: a reply decoding to `create_document` with an object of
      params imports exactly one document, built from those params, and
      when the platform returns its ID the user gets its viewer link,
      unless the document's name has no string form: the success report
      then throws and the `catch` answers with that `TypeError`. */
  lemma CreateDocumentEndToEnd(rt: Runtime, pf: Platform, reply: string, params: Json, id: string)
    requires rt.parse(reply) == Some(JObj(map["action" := JStr(CreateDocumentName), "params" := params]))
    requires params != JNull
    requires pf.importDocument(DocumentRequest(rt, params)) == Success(Some(id)) && id != ""
    ensures var r := ProcessReply(rt, pf, reply);
      var name := DocumentRequest(rt, params).fileName;
      r.calls == [Import(DocumentRequest(rt, params))] &&
      (!ToPrimitiveThrows(name) ==> StartsAt(r.text, |r.text| - |DocumentUrlPrefix + id|, DocumentUrlPrefix + id)) &&
      (ToPrimitiveThrows(name) ==> r.text == TypeErrorText(rt, NoPrimitive(name)))
  {
    var v := JObj(map["action" := JStr(CreateDocumentName), "params" := params]);
    assert Get(v, "params") == Some(params);
    assert Decoded(rt, reply) == Some(CreateDocumentAction(Some(params)));
    ProcessReplyExecutes(rt, pf, reply, CreateDocumentAction(Some(params)));
    var request := DocumentRequest(rt, params);
    if !ToPrimitiveThrows(request.fileName) {
      var name := Show(rt, Some(request.fileName)).value;
      assert CreateDocument(rt, pf, Some(params)) == Outcome(Returned(CreatedText(name, id)), [Import(request)]);
      CreatedTextShape(name, id);
    } else {
      assert CreateDocument(rt, pf, Some(params)) == Outcome(Returned(TypeErrorText(rt, NoPrimitive(request.fileName))), [Import(request)]);
    }
  }

  // ---------------------------------------------------------------- the read_wiki finding

  /** As written, every `read_wiki` instruction is answered with the
      model's raw reply and reads nothing. */
  lemma ReadWikiAsWrittenEchoesReply(rt: Runtime, pf: Platform, reply: string, params: Option<Json>)
    requires Decoded(rt, reply) == Some(ReadWikiAction(params))
    ensures ProcessReplyAsWritten(rt, pf, reply) == Reply(reply, [])
  {
  }

  /** Outside `read_wiki` the written and the corrected dispatch agree. */
  lemma AsWrittenAgreesElsewhere(rt: Runtime, pf: Platform, reply: string)
    requires Decoded(rt, reply).None? || !Decoded(rt, reply).value.ReadWikiAction?
    ensures ProcessReplyAsWritten(rt, pf, reply) == ProcessReply(rt, pf, reply)
  {
  }

  /** The concrete instruction `{"action":"read_wiki","params":{"node_token":"wikcnX"}}`:
      as written the user gets the JSON text back; corrected, the node
      `wikcnX` is looked up once and its text is the reply. */
  lemma ReadWikiCounterexample(rt: Runtime, pf: Platform, reply: string)
    requires rt.parse(reply) == Some(JObj(map["action" := JStr(ReadWikiName), "params" := JObj(map["node_token" := JStr("wikcnX")])]))
    requires pf.getNode("wikcnX") == Success(Some(WikiNode("T", Some("C"))))
    ensures ProcessReplyAsWritten(rt, pf, reply) == Reply(reply, [])
    ensures ProcessReply(rt, pf, reply) == Reply("标题: T\n内容: C", [GetNode("wikcnX")])
  {
    var params := JObj(map["node_token" := JStr("wikcnX")]);
    ReadWikiDecodes(rt, reply, params);
    ReadWikiAsWrittenEchoesReply(rt, pf, reply, Some(params));
    assert Get(params, "node_token") == Some(JStr("wikcnX"));
    ReadWikiAnswersNode(rt, pf, reply, params, "wikcnX", WikiNode("T", Some("C")));
  }

  /** Corrected, a `read_wiki` instruction naming a node that exists is
      answered with that node's text after one lookup. */
  lemma ReadWikiAnswersNode(rt: Runtime, pf: Platform, reply: string, params: Json, token: string, node: WikiNode)
    requires Decoded(rt, reply) == Some(ReadWikiAction(Some(params)))
    requires Get(params, "node_token") == Some(JStr(token))
    requires pf.getNode(token) == Success(Some(node))
    ensures ProcessReply(rt, pf, reply) == Reply(TitleLabel + node.title + "\n" + ContentLabel + WikiBody(node), [GetNode(token)])
  {
    ProcessReplyExecutes(rt, pf, reply, ReadWikiAction(Some(params)));
  }

  /** A reply that parses to a `read_wiki` object decodes to that
      instruction with its parameters. */
  lemma ReadWikiDecodes(rt: Runtime, reply: string, params: Json)
    requires rt.parse(reply) == Some(JObj(map["action" := JStr(ReadWikiName), "params" := params]))
    ensures Decoded(rt, reply) == Some(ReadWikiAction(Some(params)))
  {
    var v := JObj(map["action" := JStr(ReadWikiName), "params" := params]);
    assert Get(v, "action") == Some(JStr(ReadWikiName));
    assert Get(v, "params") == Some(params);
  }

  /** A decoded reply is answered by executing its instruction. */
  lemma ProcessReplyExecutes(rt: Runtime, pf: Platform, reply: string, i: Instruction)
    requires Decoded(rt, reply) == Some(i)
    ensures ProcessReply(rt, pf, reply) == Settle(reply, Execute(rt, pf, i))
  {
  }

  /** Corrected, a `read_wiki` instruction with a string `node_token` looks
      that node up exactly once and answers with its title and content, or
      with the failure text when there is no such node. */
  lemma ReadWikiReadsNode(rt: Runtime, pf: Platform, reply: string, params: Json, token: string)
    requires Decoded(rt, reply) == Some(ReadWikiAction(Some(params)))
    requires Get(params, "node_token") == Some(JStr(token))
    ensures var r := ProcessReply(rt, pf, reply);
      r.calls == [GetNode(token)] &&
      (StartsAt(r.text, 0, TitleLabel) <==> pf.getNode(token).Success? && pf.getNode(token).value.Some?)
  {
    var r := ProcessReply(rt, pf, reply);
    var found := WikiText(pf.getNode(token));
    assert params != JNull;
    if found.Some? {
      assert r.text == found.value;
      assert r.text[..|TitleLabel|] == TitleLabel;
    } else {
      assert r.text == LinkReadFailure;
      assert LinkReadFailure[0] != TitleLabel[0];
    }
  }
}

=== FILE: documents.dfy ===
/** The pure parts of `readDocument`: reducing a document URL to its ID,
    the case-insensitive keyword search over the document's lines, the
    500-character summary, and the reply texts built from them. */
module Documents {
  import opened Wrappers
  import opened Text
  import opened Links

  /** Host names whose presence makes `readDocument` look for `/docx/`. */
  const FeishuHost := "feishu.cn"
  const LarkHost := "larksuite.com"

  const MaxMatches: nat := 10
  const SummaryLength: nat := 500
  const Ellipsis := "..."

  const FoundHeader := "📄 在文档中找到相关内容：\n\n"
  const SummaryHeader := "📄 文档内容摘要：\n\n"

  predicate MentionsHost(id: string) {
    Contains(id, FeishuHost) || Contains(id, LarkHost)
  }

  /** The document ID `readDocument` sends to the platform: a Feishu or Lark
      URL is cut down to the token after its leftmost `/docx/`; anything
      else passes through untouched. */
  function NormaliseDocumentId(id: string): string {
    if MentionsHost(id) then
      match Search(id, DocxPath)
      case Some(hit) => hit.m.token
      case None => id
    else id
  }

  /** A URL naming a host and holding a `/docx/<token>` segment is replaced
      by the token of the leftmost such segment (which stops before the
      next `/` or `?`); every other ID is returned unchanged. */
  lemma NormaliseDocumentIdSpec(id: string)
    ensures MentionsHost(id) && Occurs(id, DocxPath) ==>
      Search(id, DocxPath).Some? &&
      var hit := Search(id, DocxPath).value;
      var r := NormaliseDocumentId(id);
      TokenOk(r) && StartsAt(id, hit.at, DocxLead + r) &&
      (hit.at + |DocxLead + r| == |id| || id[hit.at + |DocxLead + r|] in TokenStops) &&
      forall q :: 0 <= q < hit.at ==> !OccursAt(id, DocxPath, q)
    ensures !(MentionsHost(id) && Occurs(id, DocxPath)) ==> NormaliseDocumentId(id) == id
  {
    SearchLeftmost(id, DocxPath);
  }

  /** Every `/docx/` match contains a slash. */
  lemma DocxPathNeedsSlash(s: string)
    ensures Search(s, DocxPath).Some? ==> '/' in s
  {
    var r := Search(s, DocxPath);
    if r.Some? {
      SearchLeftmost(s, DocxPath);
      var at := r.value.at;
      var text := r.value.m.text;
      assert s[at..at + |text|] == text;
      assert s[at] == text[0] == '/';
    }
  }

  /** Normalising an ID that is already normalised changes nothing. */
  lemma NormaliseDocumentIdIdempotent(id: string)
    ensures NormaliseDocumentId(NormaliseDocumentId(id)) == NormaliseDocumentId(id)
  {
    var r := NormaliseDocumentId(id);
    if r != id {
      SearchLeftmost(id, DocxPath);
      DocxPathNeedsSlash(r);
    }
  }

  /** `line.toLowerCase().includes(keyword.toLowerCase())`. */
  predicate LineMatches(line: string, keyword: string) {
    Contains(Lower(line), Lower(keyword))
  }

  /** `lines.filter(line => LineMatches(line, keyword))`. */
  function MatchingLines(lines: seq<string>, keyword: string): (r: seq<string>)
    ensures |r| <= |lines|
    ensures forall i :: 0 <= i < |r| ==> r[i] in lines && LineMatches(r[i], keyword)
  {
    if |lines| == 0 then []
    else (if LineMatches(lines[0], keyword) then [lines[0]] else []) + MatchingLines(lines[1..], keyword)
  }

  /** Every matching line is kept. */
  lemma {:induction false} MatchingLinesKeepsAll(lines: seq<string>, keyword: string, i: nat)
    requires i < |lines| && LineMatches(lines[i], keyword)
    ensures lines[i] in MatchingLines(lines, keyword)
  {
    if i > 0 {
      MatchingLinesKeepsAll(lines[1..], keyword, i - 1);
      assert lines[1..][i - 1] == lines[i];
    }
  }

  /** Some line contains the keyword, ignoring ASCII case. */
  ghost predicate SomeLineMatches(lines: seq<string>, keyword: string) {
    exists i :: 0 <= i < |lines| && LineMatches(lines[i], keyword)
  }

  /** The filter keeps something exactly when some line matches. */
  lemma MatchingLinesNonEmpty(lines: seq<string>, keyword: string)
    ensures |MatchingLines(lines, keyword)| > 0 <==> SomeLineMatches(lines, keyword)
  {
    var matched := MatchingLines(lines, keyword);
    if |matched| > 0 {
      var j :| 0 <= j < |lines| && lines[j] == matched[0];
    }
    if exists i :: 0 <= i < |lines| && LineMatches(lines[i], keyword) {
      var i :| 0 <= i < |lines| && LineMatches(lines[i], keyword);
      MatchingLinesKeepsAll(lines, keyword, i);
    }
  }

  /** Filtering keeps the original order: the filter of a concatenation is
      the concatenation of the filters. */
  lemma {:induction false} MatchingLinesConcat(a: seq<string>, b: seq<string>, keyword: string)
    ensures MatchingLines(a + b, keyword) == MatchingLines(a, keyword) + MatchingLines(b, keyword)
  {
    if |a| > 0 {
      assert (a + b)[1..] == a[1..] + b;
      MatchingLinesConcat(a[1..], b, keyword);
    } else {
      assert a + b == b;
    }
  }

  /** The outcome of the keyword search over a document's lines. */
  datatype SearchOutcome = Found(lines: seq<string>) | NotFound(keyword: string)

  /** Splits the content into lines, keeps the matching ones and reports
      the first `MaxMatches` of them, or that there were none. */
  function SearchDocument(content: string, keyword: string): (r: SearchOutcome)
    ensures r.Found? <==> SomeLineMatches(Split(content, '\n'), keyword)
    ensures r.Found? ==> 0 < |r.lines| <= MaxMatches
    ensures r.Found? ==> r.lines <= MatchingLines(Split(content, '\n'), keyword)
    ensures r.Found? ==> |r.lines| == MaxMatches || r.lines == MatchingLines(Split(content, '\n'), keyword)
    ensures r.NotFound? ==> r.keyword == keyword
  {
    var lines := Split(content, '\n');
    var matched := MatchingLines(lines, keyword);
    MatchingLinesNonEmpty(lines, keyword);
    if |matched| > 0 then Found(Take(matched, MaxMatches)) else NotFound(keyword)
  }

  /** The reply text for a keyword search. */
  function KeywordReply(outcome: SearchOutcome): string {
    match outcome
    case Found(lines) => FoundHeader + Join(lines, '\n')
    case NotFound(keyword) => NotFoundText(keyword)
  }

  /** The reply when no line contains `keyword`; it quotes the keyword. */
  function NotFoundText(keyword: string): string {
    "📄 文档中未找到包含\"" + keyword + "\"的内容。"
  }

  /** The reply lists the reported lines one per line: splitting the text
      after the header gives back exactly those lines. */
  lemma KeywordReplyLines(content: string, keyword: string)
    requires SearchDocument(content, keyword).Found?
    ensures var lines := SearchDocument(content, keyword).lines;
      var reply := KeywordReply(SearchDocument(content, keyword));
      StartsAt(reply, 0, FoundHeader) && Split(reply[|FoundHeader|..], '\n') == lines
  {
    var lines := SearchDocument(content, keyword).lines;
    var all := Split(content, '\n');
    var matched := MatchingLines(all, keyword);
    forall i | 0 <= i < |lines|
      ensures '\n' !in lines[i]
    {
      assert lines[i] == matched[i];
      assert matched[i] in all;
    }
    SplitJoin(lines, '\n');
    var reply := KeywordReply(SearchDocument(content, keyword));
    assert reply[|FoundHeader|..] == Join(lines, '\n');
  }

  /** `content.length > 500 ? content.substring(0, 500) + '...' : content`:
      the first 500 characters, marked with `...` when something was cut. */
  function Summary(content: string): (r: string)
    ensures |content| <= SummaryLength ==> r == content
    ensures |content| > SummaryLength ==>
      |r| == SummaryLength + |Ellipsis| && r[..SummaryLength] == content[..SummaryLength] &&
      r[SummaryLength..] == Ellipsis
  {
    if |content| > SummaryLength then content[..SummaryLength] + Ellipsis else content
  }

  /** Summarising a summary changes nothing. */
  lemma SummaryIdempotent(content: string)
    ensures Summary(Summary(content)) == Summary(content)
  {
    var r := Summary(content);
    if |content| > SummaryLength {
      assert r[..SummaryLength] == content[..SummaryLength];
    }
  }

  /** The reply text when no keyword is given. */
  function SummaryReply(content: string): string {
    SummaryHeader + Summary(content)
  }
}

=== FILE: json.dfy ===
/** Decoded JSON values as the bot's JavaScript sees them after
    `JSON.parse`, with the two JavaScript behaviours the handlers depend on:
    property reads and truthiness (`a || b`). Parsing and serialising are
    not modelled here; they are parameters of the dispatcher. */
module Json {
  import opened Wrappers

  datatype Json =
    | JNull
    | JBool(b: bool)
    | JNum(n: real)
    | JStr(s: string)
    | JArr(items: seq<Json>)
    | JObj(fields: map<string, Json>)

  /** A property read `v.key` never throws on a value other than `null` or
      `undefined` (`None` stands for `undefined`). */
  predicate Readable(v: Option<Json>) {
    v.Some? && v.value != JNull
  }

  /** `v.key` on a readable value: the member of an object, and `undefined`
      for every other value, since none of the keys the bot reads is a
      property of strings, numbers, booleans or arrays. */
  function Get(v: Json, key: string): (r: Option<Json>)
    ensures r.Some? <==> v.JObj? && key in v.fields
    ensures r.Some? ==> r.value == v.fields[key]
  {
    match v
    case JObj(m) => if key in m then Some(m[key]) else None
    case _ => None
  }

  /** JavaScript truthiness: `undefined`, `null`, `false`, `0`, `-0` and the
      empty string are falsy; everything else is truthy. */
  predicate Truthy(v: Option<Json>) {
    match v
    case None => false
    case Some(JNull) => false
    case Some(JBool(b)) => b
    case Some(JNum(n)) => n != 0.0
    case Some(JStr(s)) => s != ""
    case Some(JArr(_)) => true
    case Some(JObj(_)) => true
  }

  /** Whether turning `v` into a string (`${v}` in a template literal)
      throws a `TypeError`. An object's own `toString` member, which JSON
      can only make a non-callable value, hides `Object.prototype.toString`,
      and the inherited `valueOf` returns the object itself, so no primitive
      form is found. An array converts by joining its items, so it throws
      when one of them does, at any depth. */
  predicate ToPrimitiveThrows(v: Json) {
    match v
    case JObj(m) => "toString" in m
    case JArr(items) => exists k :: 0 <= k < |items| && ToPrimitiveThrows(items[k])
    case _ => false
  }

  /** `v || fallback`. */
  function Or(v: Option<Json>, fallback: Json): (r: Json)
    ensures Truthy(v) ==> Some(r) == v
    ensures !Truthy(v) ==> r == fallback
  {
    if Truthy(v) then v.value else fallback
  }
}

=== FILE: links.dfy ===
/** Detection of Feishu content links in a chat message (`extractFeishuLink`)
    and the `/docx/<token>` search used to normalise document IDs.

    Each regular expression the bot uses is a `Pattern`. The patterns are
    unanchored, so JavaScript's `String.prototype.match` returns the match
    that starts leftmost; at a given start the match is unique, because
    `[^.]+` must stop exactly at the first dot and the trailing `[^/?]+`
    is greedy with nothing after it. `MatchAt` computes that match by
    scanning, `Search` finds the leftmost start, and `InLanguage` is the
    independent, declarative description of the strings a pattern accepts. */
module Links {
  import opened Wrappers
  import opened Text

  /** The three kinds of link the bot recognises, in the order it tries them. */
  datatype LinkKind = Wiki | Docx | Bitable

  const KindOrder: seq<LinkKind> := [Wiki, Docx, Bitable]

  /** Path segment of the kind's URL pattern. */
  function Segment(k: LinkKind): string {
    match k
    case Wiki => "wiki"
    case Docx => "docx"
    case Bitable => "base"
  }

  /** The `type` string the bot reports for a link of this kind. */
  function TypeName(k: LinkKind): string {
    match k
    case Wiki => "wiki"
    case Docx => "docx"
    case Bitable => "bitable"
  }

  /** The `{type, token, url}` record `extractFeishuLink` returns. */
  datatype Link = Link(kind: LinkKind, token: string, url: string)

  /** `FeishuUrl(k)` is `/https:\/\/[^.]+\.feishu\.cn\/<segment>\/([^/?]+)/`;
      `DocxPath` is `/\/docx\/([^/?]+)/`. */
  datatype Pattern = FeishuUrl(kind: LinkKind) | DocxPath

  const Scheme := "https://"
  const DocxLead := "/docx/"
  const TokenStops: set<char> := {'/', '?'}

  /** The literal text after the host: `.feishu.cn/<segment>/`. */
  function Infix(k: LinkKind): string {
    ".feishu.cn/" + Segment(k) + "/"
  }

  /** Everything a match of `pat` holds before its captured token. */
  function Lead(pat: Pattern, host: string): string {
    match pat
    case FeishuUrl(k) => Scheme + host + Infix(k)
    case DocxPath => DocxLead
  }

  /** What `[^.]+` accepts as host (the docx path has no host part). */
  predicate HostOk(pat: Pattern, host: string) {
    match pat
    case FeishuUrl(_) => |host| > 0 && '.' !in host
    case DocxPath => host == []
  }

  /** What the capture group `([^/?]+)` accepts. */
  predicate TokenOk(token: string) {
    |token| > 0 && '/' !in token && '?' !in token
  }

  /** `w` is a string the regular expression `pat` matches in full. */
  ghost predicate InLanguage(w: string, pat: Pattern) {
    exists host, token :: HostOk(pat, host) && TokenOk(token) && w == Lead(pat, host) + token
  }

  /** Some match of `pat` starts at index `p` of `s`. */
  ghost predicate OccursAt(s: string, pat: Pattern, p: int) {
    exists t :: 0 <= p <= t <= |s| && InLanguage(s[p..t], pat)
  }

  /** `pat` matches somewhere in `s`. */
  ghost predicate Occurs(s: string, pat: Pattern) {
    exists p :: OccursAt(s, pat, p)
  }

  /** A match: its full text (`match[0]`), the host run it crossed and the
      captured token (`match[1]`). */
  datatype Match = Match(text: string, host: string, token: string)

  /** A match together with the index where it starts. */
  datatype Hit = Hit(at: nat, m: Match)

  /** `m` is a well-formed match of `pat`: the pattern's lead around an
      acceptable host, then a non-empty token without `/` or `?`. */
  predicate Shaped(pat: Pattern, m: Match) {
    HostOk(pat, m.host) && TokenOk(m.token) && m.text == Lead(pat, m.host) + m.token
  }

  /** `m` sits in `s` at `p` and its token cannot be extended: the next
      character is `/`, `?` or the end of `s`. */
  predicate ClosedAt(s: string, p: nat, m: Match) {
    StartsAt(s, p, m.text) && (p + |m.text| == |s| || s[p + |m.text|] in TokenStops)
  }

  /** Closes a match that began at `p` with text `lead`: captures the
      longest token after it, if that token is non-empty. */
  function TokenFrom(s: string, p: nat, lead: string, host: string): (r: Option<Match>)
    requires StartsAt(s, p, lead)
    ensures r.Some? ==> TokenOk(r.value.token) && r.value.host == host && r.value.text == lead + r.value.token
    ensures r.Some? ==> ClosedAt(s, p, r.value)
  {
    var q := p + |lead|;
    var t := RunEnd(s, q, TokenStops);
    if t == q then None
    else
      var token := s[q..t];
      RunExcludesStops(s, q, TokenStops);
      assert '/' !in token && '?' !in token;
      assert StartsAt(s, q, token);
      StartsAtConcat(s, p, lead, token);
      Some(Match(s[p..t], host, token))
  }

  /** The match of `pat` that starts at `p`, if there is one: well formed,
      sitting in `s` at `p`, with a token that cannot be extended. */
  function MatchAt(s: string, p: nat, pat: Pattern): (r: Option<Match>)
    requires p <= |s|
    ensures r.Some? ==> Shaped(pat, r.value) && ClosedAt(s, p, r.value)
  {
    match pat
    case FeishuUrl(k) => UrlMatchAt(s, p, k)
    case DocxPath => if StartsAt(s, p, DocxLead) then TokenFrom(s, p, DocxLead, []) else None
  }

  /** `MatchAt` for a Feishu URL pattern: the scheme, the host up to the
      first dot, which must open `.feishu.cn/<segment>/`, then the token. */
  function UrlMatchAt(s: string, p: nat, k: LinkKind): (r: Option<Match>)
    requires p <= |s|
    ensures r.Some? ==> Shaped(FeishuUrl(k), r.value) && ClosedAt(s, p, r.value)
  {
    match HostAt(s, p)
    case None => None
    case Some(host) =>
      if !StartsAt(s, p + |Scheme| + |host|, Infix(k)) then None
      else
        StartsAtConcat(s, p, Scheme + host, Infix(k));
        TokenFrom(s, p, Lead(FeishuUrl(k), host), host)
  }

  /** The host a URL match at `p` crosses: after `https://`, the run of
      characters up to the first dot, when that run is not empty. */
  function HostAt(s: string, p: nat): (r: Option<string>)
    requires p <= |s|
    ensures r.Some? ==> |r.value| > 0 && '.' !in r.value && StartsAt(s, p, Scheme + r.value)
    ensures r.Some? ==> r.value == s[p + |Scheme|..RunEnd(s, p + |Scheme|, {'.'})]
  {
    if !StartsAt(s, p, Scheme) then None
    else
      var a := p + |Scheme|;
      var h := RunEnd(s, a, {'.'});
      if h == a then None
      else
        RunExcludesStops(s, a, {'.'});
        assert StartsAt(s, a, s[a..h]);
        StartsAtConcat(s, p, Scheme, s[a..h]);
        Some(s[a..h])
  }

  /** A dot-free host followed by a dot is exactly the run `[^.]+` takes. */
  lemma HostIsDotRun(s: string, a: nat, host: string)
    requires a + |host| < |s| && s[a + |host|] == '.'
    requires s[a..a + |host|] == host && '.' !in host
    ensures RunEnd(s, a, {'.'}) == a + |host|
  {
    forall i | a <= i < a + |host|
      ensures s[i] !in {'.'}
    {
      assert s[i] == host[i - a];
    }
    RunEndIsFirstStop(s, a, {'.'}, a + |host|);
  }

  /** A match returned by `MatchAt` is in the pattern's language. */
  lemma MatchAtSound(s: string, p: nat, pat: Pattern)
    requires p <= |s| && MatchAt(s, p, pat).Some?
    ensures InLanguage(MatchAt(s, p, pat).value.text, pat)
    ensures OccursAt(s, pat, p)
  {
    var m := MatchAt(s, p, pat).value;
    assert HostOk(pat, m.host) && TokenOk(m.token) && m.text == Lead(pat, m.host) + m.token;
    assert s[p..p + |m.text|] == m.text;
  }

  /** Whenever the pattern matches at `p`, `MatchAt` finds a match there,
      and it is the longest one: no match at `p` reaches beyond it. */
  lemma MatchAtComplete(s: string, p: nat, pat: Pattern, t: nat)
    requires p <= t <= |s| && InLanguage(s[p..t], pat)
    ensures MatchAt(s, p, pat).Some?
    ensures t <= p + |MatchAt(s, p, pat).value.text|
  {
    var host, token :| HostOk(pat, host) && TokenOk(token) && s[p..t] == Lead(pat, host) + token;
    MatchAtFinds(s, p, pat, t, host, token);
  }

  /** `MatchAtComplete` for a given decomposition of the match. */
  lemma MatchAtFinds(s: string, p: nat, pat: Pattern, t: nat, host: string, token: string)
    requires p <= t <= |s| && s[p..t] == Lead(pat, host) + token
    requires HostOk(pat, host) && TokenOk(token)
    ensures MatchAt(s, p, pat).Some?
    ensures t <= p + |MatchAt(s, p, pat).value.text|
  {
    TokenFromFinds(s, p, t, Lead(pat, host), host, token);
    match pat
    case FeishuUrl(k) =>
      LeadParts(s, p, k, host);
      var a := p + |Scheme|;
      assert s[a..RunEnd(s, a, {'.'})] == host;
      assert HostAt(s, p) == Some(host);
      assert UrlMatchAt(s, p, k) == TokenFrom(s, p, Lead(pat, host), host);
    case DocxPath =>
  }

  /** A lead followed by a token is closed by `TokenFrom` no earlier than
      the token's end. */
  lemma TokenFromFinds(s: string, p: nat, t: nat, lead: string, host: string, token: string)
    requires p <= t <= |s| && s[p..t] == lead + token && TokenOk(token)
    ensures StartsAt(s, p, lead) && TokenFrom(s, p, lead, host).Some?
    ensures t <= p + |TokenFrom(s, p, lead, host).value.text|
  {
    var q := p + |lead|;
    SliceOfConcat(s, p, t, lead, token);
    forall i | q <= i < t
      ensures s[i] !in TokenStops
    {
      assert s[i] == token[i - q];
    }
    RunEndIsFirstStop(s, q, TokenStops, t);
  }

  /** A URL lead at `p` is recognised piece by piece as `MatchAt` scans it. */
  lemma LeadParts(s: string, p: nat, k: LinkKind, host: string)
    requires p + |Lead(FeishuUrl(k), host)| <= |s|
    requires s[p..p + |Lead(FeishuUrl(k), host)|] == Lead(FeishuUrl(k), host)
    requires HostOk(FeishuUrl(k), host)
    ensures StartsAt(s, p, Scheme) && s[p + |Scheme|..p + |Scheme| + |host|] == host
    ensures RunEnd(s, p + |Scheme|, {'.'}) == p + |Scheme| + |host|
    ensures StartsAt(s, p + |Scheme| + |host|, Infix(k))
  {
    var q := p + |Scheme| + |host| + |Infix(k)|;
    SliceOfConcat(s, p, q, Scheme + host, Infix(k));
    SliceOfConcat(s, p, p + |Scheme| + |host|, Scheme, host);
    assert s[p + |Scheme| + |host|] == Infix(k)[0] == '.';
    HostIsDotRun(s, p + |Scheme|, host);
  }

  /** A start index where some match sits is exactly one where `MatchAt`
      succeeds. */
  lemma MatchAtIffOccurs(s: string, p: nat, pat: Pattern)
    requires p <= |s|
    ensures MatchAt(s, p, pat).Some? <==> OccursAt(s, pat, p)
  {
    if MatchAt(s, p, pat).Some? {
      MatchAtSound(s, p, pat);
    }
    if OccursAt(s, pat, p) {
      var t :| 0 <= p <= t <= |s| && InLanguage(s[p..t], pat);
      MatchAtComplete(s, p, pat, t);
    }
  }

  /** Index of the first present entry of `xs` at or after `from`. */
  function FirstFrom<T>(xs: seq<Option<T>>, from: nat): (r: Option<nat>)
    requires from <= |xs|
    ensures r.Some? ==> from <= r.value < |xs| && xs[r.value].Some?
    ensures r.Some? ==> forall q :: from <= q < r.value ==> xs[q].None?
    ensures r.None? ==> forall q :: from <= q < |xs| ==> xs[q].None?
    decreases |xs| - from
  {
    if from == |xs| then None
    else if xs[from].Some? then Some(from)
    else FirstFrom(xs, from + 1)
  }

  /** What `MatchAt` finds at every start index of `s`, including `|s|`. */
  function MatchTable(s: string, pat: Pattern): (r: seq<Option<Match>>)
    ensures |r| == |s| + 1
  {
    seq(|s| + 1, q requires 0 <= q <= |s| => MatchAt(s, q, pat))
  }

  /** JavaScript's `s.match(pat)` for the bot's unanchored patterns: the
      match at the least start index where there is one. */
  function Search(s: string, pat: Pattern): Option<Hit> {
    var table := MatchTable(s, pat);
    match FirstFrom(table, 0)
    case Some(at) => Some(Hit(at, table[at].value))
    case None => None
  }

  /** The search fails exactly when the pattern matches nowhere, and when it
      succeeds its match starts leftmost among all matches. */
  lemma SearchLeftmost(s: string, pat: Pattern)
    ensures Search(s, pat).None? <==> !Occurs(s, pat)
    ensures Search(s, pat).Some? ==>
      var hit := Search(s, pat).value;
      hit.at <= |s| && MatchAt(s, hit.at, pat) == Some(hit.m) && OccursAt(s, pat, hit.at) &&
      forall q :: 0 <= q < hit.at ==> !OccursAt(s, pat, q)
  {
    var table := MatchTable(s, pat);
    var first := FirstFrom(table, 0);
    if first.Some? {
      var at := first.value;
      MatchAtIffOccurs(s, at, pat);
      forall q | 0 <= q < at
        ensures !OccursAt(s, pat, q)
      {
        assert table[q].None?;
        MatchAtIffOccurs(s, q, pat);
      }
    } else {
      forall p | OccursAt(s, pat, p)
        ensures false
      {
        assert table[p].None?;
        MatchAtIffOccurs(s, p, pat);
      }
    }
  }

  /** `k` is listed in `kinds` at a position before which every listed
      kind's pattern fails on `message`. */
  ghost predicate TriedInOrder(message: string, kinds: seq<LinkKind>, k: LinkKind) {
    exists i :: 0 <= i < |kinds| && kinds[i] == k &&
      forall j :: 0 <= j < i ==> Search(message, FeishuUrl(kinds[j])).None?
  }

  /** A kind tried in order after a failing first kind is tried in order in
      the whole list. */
  lemma TriedInOrderShift(message: string, kinds: seq<LinkKind>, k: LinkKind)
    requires |kinds| > 0 && Search(message, FeishuUrl(kinds[0])).None?
    requires TriedInOrder(message, kinds[1..], k)
    ensures TriedInOrder(message, kinds, k)
  {
    var i :| 0 <= i < |kinds[1..]| && kinds[1..][i] == k &&
      forall j :: 0 <= j < i ==> Search(message, FeishuUrl(kinds[1..][j])).None?;
    assert kinds[i + 1] == k;
    forall j | 0 <= j < i + 1
      ensures Search(message, FeishuUrl(kinds[j])).None?
    {
      if j > 0 {
        assert kinds[j] == kinds[1..][j - 1];
      }
    }
  }

  /** Tries the patterns for `kinds` in order and reports the first match. */
  function FirstLink(message: string, kinds: seq<LinkKind>): (r: Option<Link>)
    ensures r.Some? ==> TriedInOrder(message, kinds, r.value.kind)
    ensures r.Some? ==> var hit := Search(message, FeishuUrl(r.value.kind));
      hit.Some? && r.value.token == hit.value.m.token && r.value.url == hit.value.m.text
    ensures r.None? <==> forall i :: 0 <= i < |kinds| ==> Search(message, FeishuUrl(kinds[i])).None?
  {
    if |kinds| == 0 then None
    else
      match Search(message, FeishuUrl(kinds[0]))
      case Some(hit) => Some(Link(kinds[0], hit.m.token, hit.m.text))
      case None =>
        var r := FirstLink(message, kinds[1..]);
        if r.Some? then
          TriedInOrderShift(message, kinds, r.value.kind);
          r
        else
          assert forall i :: 1 <= i < |kinds| ==> kinds[i] == kinds[1..][i - 1];
          r
  }

  /** `extractFeishuLink`: the first of the wiki, docx and base patterns that
      matches, as `{type, token, url}`; `None` models the `null` return. */
  function ExtractFeishuLink(message: string): Option<Link> {
    FirstLink(message, KindOrder)
  }

  /** `extractFeishuLink` returns `null` exactly when none of the three
      patterns matches anywhere in the message. */
  lemma ExtractFeishuLinkNone(message: string)
    ensures ExtractFeishuLink(message).None? <==> forall k :: !Occurs(message, FeishuUrl(k))
  {
    SearchLeftmost(message, FeishuUrl(Wiki));
    SearchLeftmost(message, FeishuUrl(Docx));
    SearchLeftmost(message, FeishuUrl(Bitable));
    assert KindOrder[0] == Wiki && KindOrder[1] == Docx && KindOrder[2] == Bitable;
    if ExtractFeishuLink(message).None? {
      forall k
        ensures !Occurs(message, FeishuUrl(k))
      {
        assert k == KindOrder[0] || k == KindOrder[1] || k == KindOrder[2];
      }
    }
  }

  /** The kinds are tried in the fixed order wiki, docx, base, whatever the
      positions of the links in the message: a wiki link always wins, a
      docx link wins only when there is no wiki link, a base link only when
      there is neither. */
  lemma ExtractFeishuLinkPriority(message: string)
    ensures var r := ExtractFeishuLink(message);
      (Occurs(message, FeishuUrl(Wiki)) ==> r.Some? && r.value.kind == Wiki) &&
      (r.Some? && r.value.kind == Docx ==>
        !Occurs(message, FeishuUrl(Wiki)) && Occurs(message, FeishuUrl(Docx))) &&
      (r.Some? && r.value.kind == Bitable ==>
        !Occurs(message, FeishuUrl(Wiki)) && !Occurs(message, FeishuUrl(Docx)) && Occurs(message, FeishuUrl(Bitable)))
  {
    var r := ExtractFeishuLink(message);
    SearchLeftmost(message, FeishuUrl(Wiki));
    SearchLeftmost(message, FeishuUrl(Docx));
    SearchLeftmost(message, FeishuUrl(Bitable));
    assert KindOrder[0] == Wiki && KindOrder[1] == Docx && KindOrder[2] == Bitable;
    if r.Some? {
      var i :| 0 <= i < |KindOrder| && KindOrder[i] == r.value.kind &&
        forall j :: 0 <= j < i ==> Search(message, FeishuUrl(KindOrder[j])).None?;
      if r.value.kind == Docx {
        assert i == 1;
      } else if r.value.kind == Bitable {
        assert i == 2;
      }
    }
  }

  /** A reported link is the leftmost match of its kind's pattern:
      `https://`, a non-empty run of non-dot characters, `.feishu.cn/`, the
      kind's segment, `/` and a non-empty token without `/` or `?`, which
      runs up to the next `/`, `?` or the end of the message. */
  lemma ExtractedLinkShape(message: string, l: Link)
    requires ExtractFeishuLink(message) == Some(l)
    ensures Search(message, FeishuUrl(l.kind)).Some?
    ensures LeftmostUrl(message, l, Search(message, FeishuUrl(l.kind)).value)
  {
    FirstLinkHit(message, KindOrder, l);
    var hit := Search(message, FeishuUrl(l.kind)).value;
    HitShape(message, FeishuUrl(l.kind), hit);
    HitLeftmost(message, FeishuUrl(l.kind), hit);
    LinkShape(message, l, hit);
  }

  /** `l` is the URL of kind `l.kind` found at `hit`: `https://`, a
      non-empty run of non-dot characters, `.feishu.cn/`, the kind's
      segment, `/` and a non-empty token without `/` or `?` that runs up to
      the next `/`, `?` or the end of the message; and no match of the
      kind's pattern starts earlier. */
  ghost predicate LeftmostUrl(message: string, l: Link, hit: Hit) {
    TokenOk(l.token) && |hit.m.host| > 0 && '.' !in hit.m.host &&
    l.url == Scheme + hit.m.host + Infix(l.kind) + l.token &&
    StartsAt(message, hit.at, l.url) &&
    (hit.at + |l.url| == |message| || message[hit.at + |l.url|] in TokenStops) &&
    forall q :: 0 <= q < hit.at ==> !OccursAt(message, FeishuUrl(l.kind), q)
  }

  /** A link is reported from a hit of its kind: the hit's token and text. */
  lemma FirstLinkHit(message: string, kinds: seq<LinkKind>, l: Link)
    requires FirstLink(message, kinds) == Some(l)
    ensures Search(message, FeishuUrl(l.kind)).Some?
    ensures l.token == Search(message, FeishuUrl(l.kind)).value.m.token
    ensures l.url == Search(message, FeishuUrl(l.kind)).value.m.text
  {
  }

  /** `ExtractedLinkShape` for a link taken from a well-formed, leftmost hit. */
  lemma LinkShape(message: string, l: Link, hit: Hit)
    requires Shaped(FeishuUrl(l.kind), hit.m) && ClosedAt(message, hit.at, hit.m)
    requires forall q :: 0 <= q < hit.at ==> !OccursAt(message, FeishuUrl(l.kind), q)
    requires l.token == hit.m.token && l.url == hit.m.text
    ensures LeftmostUrl(message, l, hit)
  {
    assert Lead(FeishuUrl(l.kind), hit.m.host) == Scheme + hit.m.host + Infix(l.kind);
  }

  /** The shape of a successful search's hit, read off `MatchAt`. */
  lemma HitShape(s: string, pat: Pattern, hit: Hit)
    requires Search(s, pat) == Some(hit)
    ensures Shaped(pat, hit.m) && ClosedAt(s, hit.at, hit.m)
  {
    SearchLeftmost(s, pat);
  }

  /** No match of the pattern starts before a search's hit. */
  lemma HitLeftmost(s: string, pat: Pattern, hit: Hit)
    requires Search(s, pat) == Some(hit)
    ensures forall q :: 0 <= q < hit.at ==> !OccursAt(s, pat, q)
  {
    SearchLeftmost(s, pat);
  }


  /** The source text of each kind's regular expression. */
  const SourceHead := "https:\\/\\/[^.]+\\.feishu\\.cn\\/"
  const SourceTail := "\\/([^/?]+)"

  function PatternSource(k: LinkKind): string {
    SourceHead + Segment(k) + SourceTail
  }

  /** How the bot names a matched link's type: by looking for `wiki`, then
      `docx`, in the source text of the pattern that matched. */
  function TypeFromSource(source: string): string {
    if Contains(source, "wiki") then "wiki" else if Contains(source, "docx") then "docx" else "bitable"
  }

  /** The type read off a pattern's source is the kind's name: `wiki`,
      `docx`, and `bitable` for the base pattern. */
  lemma TypeFromPatternSource(k: LinkKind)
    ensures TypeFromSource(PatternSource(k)) == TypeName(k)
  {
    var src := PatternSource(k);
    var seg := Segment(k);
    FixedSourceLacks('w');
    FixedSourceLacks('d');
    assert src[|SourceHead|..|SourceHead| + |seg|] == seg;
    match k
    case Wiki =>
      assert StartsAt(src, |SourceHead|, "wiki");
    case Docx =>
      ContainsFirstChar(src, "wiki");
      assert 'w' !in src;
      assert StartsAt(src, |SourceHead|, "docx");
    case Bitable =>
      ContainsFirstChar(src, "wiki");
      ContainsFirstChar(src, "docx");
      assert 'w' !in src && 'd' !in src;
  }

  /** The parts of a pattern's source around its segment hold neither
      `w` nor `d`. */
  lemma FixedSourceLacks(c: char)
    requires c == 'w' || c == 'd'
    ensures c !in SourceHead && c !in SourceTail
  {
    forall i | 0 <= i < |SourceHead|
      ensures SourceHead[i] != c
    {
    }
    forall i | 0 <= i < |SourceTail|
      ensures SourceTail[i] != c
    {
    }
  }

}

=== FILE: text.dfy ===
/** String primitives the bot relies on, written over `seq<char>`:
    substring search (`includes`), maximal character runs (the `[^...]+`
    classes of its regular expressions), `split`/`join` on one separator,
    an ASCII `toLowerCase`, and `slice(0, n)`. */
module Text {

  /** `sub` occurs in `s` starting at index `i`. */
  predicate StartsAt(s: string, i: int, sub: string) {
    0 <= i && i + |sub| <= |s| && s[i..i + |sub|] == sub
  }

  /** JavaScript's `s.includes(sub)`. */
  predicate Contains(s: string, sub: string) {
    exists i | 0 <= i <= |s| :: StartsAt(s, i, sub)
  }

  /** A string containing `sub` contains its first character. */
  lemma ContainsFirstChar(s: string, sub: string)
    requires |sub| > 0
    ensures Contains(s, sub) ==> sub[0] in s
  {
    if Contains(s, sub) {
      var i :| 0 <= i <= |s| && StartsAt(s, i, sub);
      assert s[i] == sub[0];
    }
  }

  /** End of the longest run of characters outside `stops` that starts at
      `from`: what a greedy `[^stops]*` consumes from there. */
  function RunEnd(s: string, from: nat, stops: set<char>): (r: nat)
    requires from <= |s|
    ensures from <= r <= |s|
    ensures forall i :: from <= i < r ==> s[i] !in stops
    ensures r < |s| ==> s[r] in stops
    decreases |s| - from
  {
    if from == |s| || s[from] in stops then from else RunEnd(s, from + 1, stops)
  }

  /** No character of the run is a stop character. */
  lemma RunExcludesStops(s: string, from: nat, stops: set<char>)
    requires from <= |s|
    ensures forall c :: c in s[from..RunEnd(s, from, stops)] ==> c !in stops
  {
    var run := s[from..RunEnd(s, from, stops)];
    forall c | c in run
      ensures c !in stops
    {
      var i :| 0 <= i < |run| && run[i] == c;
      assert run[i] == s[from + i];
    }
  }

  /** The run ends at the first stop character: any run of non-stop
      characters from `from` that reaches `j` stops no later than `RunEnd`. */
  lemma RunEndIsFirstStop(s: string, from: nat, stops: set<char>, j: nat)
    requires from <= j <= |s|
    requires forall i :: from <= i < j ==> s[i] !in stops
    ensures j <= RunEnd(s, from, stops)
    ensures j < |s| && s[j] in stops ==> RunEnd(s, from, stops) == j
  {
  }

  /** Adjacent occurrences compose into an occurrence of the concatenation. */
  lemma StartsAtConcat(s: string, i: int, a: string, b: string)
    requires StartsAt(s, i, a) && StartsAt(s, i + |a|, b)
    ensures StartsAt(s, i, a + b)
  {
    assert s[i..i + |a| + |b|] == s[i..i + |a|] + s[i + |a|..i + |a| + |b|];
  }

  /** A slice that spells `a + b` splits into a slice spelling `a` followed
      by one spelling `b`. */
  lemma SliceOfConcat(s: string, i: int, j: int, a: string, b: string)
    requires 0 <= i <= j <= |s| && s[i..j] == a + b
    ensures s[i..i + |a|] == a && s[i + |a|..j] == b
  {
    assert s[i..i + |a|] == s[i..j][..|a|];
    assert s[i + |a|..j] == s[i..j][|a|..];
  }

  /** JavaScript's `parts.join(sep)` for a one-character separator. */
  function Join(parts: seq<string>, sep: char): string
  {
    if |parts| == 0 then ""
    else if |parts| == 1 then parts[0]
    else parts[0] + [sep] + Join(parts[1..], sep)
  }

  /** JavaScript's `s.split(sep)` for a one-character separator: the pieces
      between consecutive separators, always at least one. */
  function Split(s: string, sep: char): (r: seq<string>)
    ensures |r| >= 1
    ensures forall i :: 0 <= i < |r| ==> sep !in r[i]
    decreases |s|
  {
    var e := RunEnd(s, 0, {sep});
    if e == |s| then [s] else [s[..e]] + Split(s[e + 1..], sep)
  }

  /** Joining the pieces of a split gives back the original string. */
  lemma {:induction false} JoinSplit(s: string, sep: char)
    ensures Join(Split(s, sep), sep) == s
    decreases |s|
  {
    var e := RunEnd(s, 0, {sep});
    if e < |s| {
      JoinSplit(s[e + 1..], sep);
      var rest := Split(s[e + 1..], sep);
      assert Split(s, sep) == [s[..e]] + rest;
      assert ([s[..e]] + rest)[1..] == rest;
      assert s == s[..e] + [sep] + s[e + 1..];
    }
  }

  /** Splitting a join of separator-free pieces gives back the pieces. */
  lemma {:induction false} SplitJoin(parts: seq<string>, sep: char)
    requires |parts| >= 1
    requires forall i :: 0 <= i < |parts| ==> sep !in parts[i]
    ensures Split(Join(parts, sep), sep) == parts
    decreases |parts|
  {
    var s := Join(parts, sep);
    var p := parts[0];
    RunEndIsFirstStop(s, 0, {sep}, |p|);
    if |parts| > 1 {
      assert s == p + [sep] + Join(parts[1..], sep);
      assert s[|p|] == sep;
      assert s[..|p|] == p;
      assert s[|p| + 1..] == Join(parts[1..], sep);
      SplitJoin(parts[1..], sep);
      assert parts == [p] + parts[1..];
    } else {
      assert s == p;
    }
  }

  /** Two newline-free lines joined by the separator split back into
      those two lines. */
  lemma SplitTwo(a: string, b: string, sep: char)
    requires sep !in a && sep !in b
    ensures Split(a + [sep] + b, sep) == [a, b]
  {
    assert Join([a, b], sep) == a + [sep] + b by {
      assert [a, b][1..] == [b];
    }
    SplitJoin([a, b], sep);
  }

  /** ASCII-only `toLowerCase` on one character. */
  function LowerChar(c: char): char {
    if 'A' <= c <= 'Z' then (c as int + 32) as char else c
  }

  /** ASCII-only `toLowerCase`: folds `A`-`Z`, keeps every other character. */
  function Lower(s: string): (r: string)
    ensures |r| == |s|
    ensures forall i :: 0 <= i < |s| ==> r[i] == LowerChar(s[i])
  {
    seq(|s|, i requires 0 <= i < |s| => LowerChar(s[i]))
  }

  /** JavaScript's `s.slice(0, n)`: the first `n` elements, or all of them. */
  function Take<T>(s: seq<T>, n: nat): (r: seq<T>)
    ensures |r| == if |s| <= n then |s| else n
    ensures r == s[..|r|]
  {
    if |s| <= n then s else s[..n]
  }
}

=== FILE: wrappers.dfy ===
/** Failure-compatible wrappers used throughout the model: `Option` for
    JavaScript's `null`/`undefined` results, `Result` for calls that can
    throw or be rejected. */
module Wrappers {

  datatype Option<+T> = None | Some(value: T)

  datatype Result<+R, +E> = Success(value: R) | Failure(error: E)
}
